=== FILE: README.md ===
# Template directives of gohtmx v2, modelled in Dafny

gohtmx builds HTML from a tree of components. Each component compiles itself
into a Go `html/template` source through `Init(f *Framework, w io.Writer)`.
The directive-emitting components live in `v2/template.go`:

- `Variable` binds a render-time value: `{{name := id $r}}`.
- `With` scopes its content: `{{with id $r}} … {{end}}`.
- `Condition` guards its content: `{{if id $r}} … {{end}}`.
- `Conditions` is an if / else-if / else chain.

Before a component writes a callback's identifier, it registers the callback
in the template's function map under an identifier from
`Generator.NewFunctionID`. Every directive-emitting component refuses to run when
the framework cannot template; `Raw` and `Fragment` still write literals.

This project models that compilation and proves what it writes, what it keeps
and how it fails.

- `Nodes` is the component tree. `Raw` and `Fragment` are included because
  the directive kinds are built from them. A Go `nil` component or predicate
  is `None`.
- `Framework` holds the compilation context:
  - `Env`: whether templating is available, the identifier generator, and
    the set of write attempts at which the stream fails;
  - `Emit`: the directive tokens written so far, the function registry, and
    the number of attempted writes;
  - `Write`, the model of one `Raw(...).Init` call;
  - `Register`, the model of `NewFunctionID` followed by `Template.Funcs`.

  A write may only name identifiers that are already registered, so every
  call site carries the registration-before-write obligation.
- `Template` holds the compiler itself, one function per `Init`. The chain
  loop is split into `Guards` (the `for` loop), `Branch` (one guarded entry)
  and `CloseChain` / `Terminate` (the `{{else}}`, the merged fallback block
  and the `{{end}}`).
- `Reference` is an independent, declarative statement of the template each
  tree should produce. For chains it is written by filtering (`Guarded`,
  `Fallback`) instead of the compiler's counter and accumulator. The module
  also has a directive-nesting checker (`Run`, `WellNested`).
- `Agreement` proves that the compiler writes exactly the reference tokens
  and registers exactly the identifiers they name. This holds whenever:
  - templating is available;
  - the stream does not fail;
  - no chain entry panics.
- `Invariants` covers every stream behaviour. It proves that output is
  append-only, the registry only grows, and no identifier is written before
  it is registered. It also proves that a reported stream error is the last
  write attempted.
- `Properties` covers the per-kind behaviours: the capability gate,
  attribution of failures to phases, and the treatment of chain entries. It
  includes the two behaviours the code has as written:
  - the ignored fallback error;
  - the panic on a predicate entry without content. Its exact place is
    proved on a stream that never fails; on any stream such a chain still
    never succeeds.
- `Nesting` proves that a compilation on a stream that never fails writes a
  well-nested template. On a failing stream this does not hold: the fallback
  error discarded at line 139 can leave a chain's `{{if}}` unclosed while the
  chain reports success (`Scenarios.LostEndUnbalances`).
- `Scenarios` holds worked chains, including two where a failed fallback
  write is reported as success.

## Model

| member | source | states |
|---|---|---|
| Framework.ConditionString | v2/template.go:60-62 | the guard is `if `, the identifier, then ` $r`; its length is the identifier's plus six |
| Framework.Write | v2/template.go:23 | a write of a token whose identifiers are all registered either appends the token, or fails with the attempt's index and appends nothing; the attempt counter advances either way |
| Framework.Register | v2/template.go:21-22 | after registration the generated identifier resolves to the callback and every other identifier keeps its callback; the output and the attempt count are unchanged |
| Template.Wrap | v2/template.go:41-43 | tagging an error with its phase keeps success, failure and panic apart; the tagged error's direct cause is the inner error (`%w`), and a panic passes through unchanged, index included |
| Template.Terminate | v2/template.go:142-146 | without branches closing a chain changes nothing and succeeds; with branches it either appends exactly `{{end}}` or appends nothing and fails with `ChainEnd` at its own write attempt |
| Invariants.InitKeeps | v2/template.go:17-148 | compiling any node, whatever the stream does, keeps the output append-only and only grows the registry; it never writes an unregistered identifier and keeps each identifier equal to its callback's; a propagated stream error is the last attempt |
| Invariants.VariableKeeps | v2/template.go:17-24 | `Variable.Init` registers before it writes and stops at its stream error |
| Invariants.BlockKeeps | v2/template.go:38-52 | the prefix / content / `{{end}}` block keeps the invariants and stops at its first failure |
| Invariants.GuardsKeeps | v2/template.go:108-130 | the chain loop keeps the invariants and stops at the first failing entry |
| Invariants.CloseKeeps | v2/template.go:132-147 | the end of the chain, fallback block included, keeps the output append-only, the registry growing, closed and consistent, and a reported stream error is the last write attempted |
| Agreement.InitMatches | v2/template.go:17-148 | with templating available, a stream that never fails and a well-formed tree, compilation succeeds, writes exactly the reference template and registers exactly the identifiers it names |
| Agreement.CompiledText | v2/template.go:17-148 | with templating available, a stream that never fails and a well-formed tree, compilation succeeds and the rendered text after compiling a node is the text before it followed by the rendering of the node's reference template |
| Agreement.ConditionMatches | v2/template.go:64-92 | a stand-alone condition writes nothing without content, the bare content without a predicate, and the guarded block otherwise |
| Agreement.ConditionsMatches | v2/template.go:96-148 | a chain writes the guarded entries in order (`if`, then `else if`), then one `{{else}}` exactly when there are both branches and fallback content, the fallback contents in input order, and one `{{end}}` exactly when there is a branch |
| Agreement.GuardsMatch | v2/template.go:108-130 | from entry `i` the loop writes one guarded branch per predicate entry, counts them all into `branches`, and appends every nil-predicate content to `elses` in order |
| Agreement.CloseMatches | v2/template.go:132-147 | the end of the chain writes `{{else}}` iff there are branches and fallback content, the fallback block, and `{{end}}` iff there are branches |
| Properties.GateInit | v2/template.go:18-20 | without templating, every directive kind fails with `CannotTemplate` and changes nothing; a whole tree registers nothing and writes only literals |
| Properties.VariableWritesBinding | v2/template.go:17-24 | `Variable` registers its callback under the generated identifier and attempts exactly one write; on success the text grows by `{{name := id $r}}`, and on failure the write error is returned unwrapped |
| Properties.BlockPhases | v2/template.go:40-52 | a block reports a failure in the phase where it happened: opening write, content or closing write; a panic in the content passes through |
| Properties.BlockOutput | v2/template.go:40-43 | a block writes its opening directive first, or nothing at all |
| Properties.WithShape | v2/template.go:31-53 | `With` without content is a no-op; otherwise it registers its callback and is the block `{{with id $r}}` content `{{end}}` with the `With` phases |
| Properties.ConditionShapes | v2/template.go:64-92 | the nil-content test comes before the nil-predicate test; a predicate without content registers and writes nothing; without a predicate it is its content alone; otherwise it registers and writes the guarded block |
| Properties.GuardText | v2/template.go:115-123 | the rendered `{{if id $r}}`, `{{else if id $r}}` and `{{with id $r}}` directives |
| Properties.ShortChains | v2/template.go:100-105 | an empty chain is a no-op and a chain of one entry is that entry compiled as a stand-alone `Condition` |
| Properties.BranchPhases | v2/template.go:115-128 | a guarded entry registers its identifier and writes `if` for the first branch and `else if` after it; a failed guard write is `EntryGuard(i)`, a failure in the content is `EntryContent(i)`, and a missing content panics right after the guard |
| Properties.GuardsPhases | v2/template.go:108-130 | the loop fails only in the phases of its own predicate entries; when it completes, `branches` counts every predicate entry and `elses` holds every fallback content in order |
| Properties.ClosePhases | v2/template.go:132-147 | the end of the chain fails only on `{{else}}`, when there are branches and fallback content, or on `{{end}}`, when there are branches |
| Properties.ChainPhases | v2/template.go:96-148 | every error a chain of two or more entries reports carries a predicate entry's `EntryGuard`/`EntryContent` tag, `ChainElse` (with branches and fallback content) or `ChainEnd` (with branches) |
| Properties.FallbackErrorIgnored | v2/template.go:139 | once `{{else}}` is written, the chain's status depends only on a panic in the fallback block and on the closing write; a failure inside the block is discarded |
| Properties.NilContentEntryPanics | v2/template.go:119-126 | with templating, on a stream that never fails, in a chain of two or more entries the first predicate entry without content is not skipped: its callback is registered, its guard is the last token written, and compilation panics at that index |
| Properties.ContentlessEntryNeverOk | v2/template.go:115-126 | with templating, on any stream, a chain of two or more entries with a predicate entry without content never succeeds; an error it reports is the guard or content error of a predicate entry no later than that one |
| Properties.IdentifiersResolve | v2/template.go:17-148 | every identifier in the written template is registered and resolves to the callback it was generated from |
| Nesting.ExpectedBalanced | v2/template.go:31-148 | the reference template of any tree closes every scope it opens and only continues an open `if` |
| Nesting.CompiledWellNested | v2/template.go:96-148 | a successful compilation on a stream that never fails writes a well-nested template |
| Scenarios.UnguardedChain | v2/template.go:108-147 | a chain without predicates writes its contents in order with no directive around them |
| Scenarios.ChainPartition | v2/template.go:108-113 | every entry goes to at most one of the guarded branches or the fallback block, and there are no branches iff no entry has a predicate |
| Scenarios.MixedChain | v2/template.go:96-148 | `[admin: A, nil: B, owner: C, nil: D]` compiles to the directives of `{{if a $r}}A{{else if o $r}}C{{else}}BD{{end}}` and registers exactly the two predicates |
| Scenarios.FallbackWriteLost | v2/template.go:132-147 | `[p: A, nil: B]` with the write of `B` failing still succeeds, leaving the directives of `{{if p $r}}A{{else}}{{end}}` |
| Scenarios.LostEndUnbalances | v2/template.go:132-147 | `[p: A, nil: With(f, B)]` with the `With`'s own `{{end}}` failing still reports success, but the chain's `{{end}}` closes the `with` and the `{{if}}` stays open: the written template is not well nested |
| Scenarios.ChainAndConditionDisagree | v2/template.go:64-128 | with templating, on a stream that never fails, a predicate without content is a silent no-op as a `Condition` but writes its guard and panics as the first entry of a chain |

## Left out

- The source of `Raw` and `Fragment` is not part of this model; both are
  modelled from how `v2/template.go` uses them. `Raw(s).Init` is one write
  whose error is returned unwrapped. `Fragment.Init` compiles its children in
  order and returns the first non-nil error unchanged.
- The `Framework` type, `CanTemplate` and `Generator` are not part of this
  model. They are the `Env` parameters: a capability flag and an
  arbitrary identifier function. Where uniqueness matters (`IdentifiersResolve`),
  the lemma asks for an injective generator instead of assuming one.
- The `html/template` machinery behind `Template.Funcs` is a plain map insert.
  Parsing and executing the template at request time, and the callbacks
  themselves, are out of scope; a callback is only an identity.
- The `io.Writer` is an append-only sequence of directive tokens plus a
  failure oracle (`Env.failAt`). The modelled writer appends nothing when a
  write fails; a real writer might have written part of its input.
- Error values are structured (`Wrapped(phase, inner)`), not the strings
  `fmt.Errorf` builds. The phase names the message, `EntryGuard(i)` and
  `EntryContent(i)` carry the `Conditions[%d]` index, and `%w` wrapping keeps
  the inner error.
- A Go panic is the status `Panicked(i)`. It is not an error value, so no
  phase tag is applied, and the discarded fallback error at line 139 does not
  catch it.
- Scenarios.MixedChain, Scenarios.FallbackWriteLost, Scenarios.LostEndUnbalances: state the written
  template as directive tokens rather than as one string. Each token's text is
  given by `Framework.Render` and `Properties.GuardText`; a string equality
  over an abstract identifier is too costly to prove.
- One might expect a chain to skip a predicate entry without content, as a
  stand-alone `Condition` does. The code panics instead (`tc.Content.Init` on a nil interface),
  and the model follows the code: `NilContentEntryPanics`,
  `ChainAndConditionDisagree`.
- Literals are opaque: `Reference.Step` does not look inside a `Raw` text, and
  `TokenIds` finds no identifier in it. So `Nesting.CompiledWellNested` and
  `Properties.IdentifiersResolve` say nothing about directives a `Raw` writes
  itself, such as `Raw("{{end}}")`.

=== FILE: agreement.dfy ===
/**
  The compiler agrees with the reference: with templating available, a stream
  that never fails and a tree without a panicking chain entry, compiling a node
  succeeds, writes exactly the node's reference tokens and registers exactly
  the identifiers those tokens name.
 */
module Agreement {
  import opened Nodes
  import opened Framework
  import opened Template
  import opened Reference

  /** No write attempt from index `a` on fails. */
  ghost predicate NoFailuresFrom(env: Env, a: nat)
  {
    forall k :: k in env.failAt ==> k < a
  }

  /** Compiling from `st` succeeded, appended exactly `ts` and registered
      exactly the identifiers `ts` names. */
  ghost predicate Matches(st: Emit, r: Outcome, ts: seq<Token>)
  {
    && r.status == Ok
    && r.st.out == st.out + ts
    && r.st.registry.Keys == st.registry.Keys + IdsOf(ts)
  }

  lemma MatchesCompose(st: Emit, r1: Outcome, ts1: seq<Token>, r2: Outcome, ts2: seq<Token>)
    requires Matches(st, r1, ts1) && Matches(r1.st, r2, ts2)
    ensures Matches(st, r2, ts1 + ts2)
  {
    IdsOfAppend(ts1, ts2);
    assert st.out + ts1 + ts2 == st.out + (ts1 + ts2);
  }

  lemma IdsOfSingle(t: Token)
    ensures IdsOf([t]) == TokenIds(t)
  {
    assert [t][1..] == [];
  }

  /** The identifiers of a block `[open] + body + [End]`. */
  lemma IdsOfBlock(open: Token, body: seq<Token>)
    ensures IdsOf([open] + body + [End]) == TokenIds(open) + IdsOf(body)
  {
    IdsOfAppend([open] + body, [End]);
    IdsOfAppend([open], body);
    IdsOfSingle(open);
    IdsOfSingle(End);
  }

  lemma FallbackWellFormed(cs: seq<Condition>)
    requires forall i :: 0 <= i < |cs| ==> EntryWellFormed(cs[i])
    ensures forall k :: 0 <= k < |Fallback(cs)| ==> WellFormed(Fallback(cs)[k])
  {
  }

  /** `Guarded` and `Fallback` of a suffix, one entry at a time. */
  lemma SplitsStep(cs: seq<Condition>, i: nat)
    requires i < |cs|
    ensures Guarded(cs[i..]) == (if cs[i].pred.Some? then [cs[i]] else []) + Guarded(cs[i + 1..])
    ensures Fallback(cs[i..]) ==
      (if cs[i].pred.None? && cs[i].content.Some? then [cs[i].content.value] else []) + Fallback(cs[i + 1..])
  {
    assert cs[i..][1..] == cs[i + 1..];
  }

  /** The rendered text of a compilation is the text already written followed
      by the rendering of the node's reference template. */
  lemma CompiledText(env: Env, st: Emit, n: Node)
    requires env.canTemplate && WellFormed(n) && NoFailuresFrom(env, st.attempts)
    ensures var r := Init(env, st, n); r.status.Ok? && Text(r.st) == Text(st) + RenderAll(Expected(env.newId, n))
  {
    InitMatches(env, st, n);
    RenderAllAppend(st.out, Expected(env.newId, n));
  }

  lemma {:induction false} InitMatches(env: Env, st: Emit, n: Node)
    requires env.canTemplate && WellFormed(n) && NoFailuresFrom(env, st.attempts)
    ensures Matches(st, Init(env, st, n), Expected(env.newId, n))
    decreases Size(n), 0
  {
    match n
    case Raw(s) =>
      IdsOfSingle(Lit(s));
    case Fragment(ch) =>
      FragmentMatches(env, st, ch);
    case Variable(name, f) =>
      IdsOfSingle(Bind(name, env.newId(f)));
    case With(f, c) =>
      if c.Some? {
        assert Size(n) == 2 + Size(c.value);
        var st1 := Register(env, st, f);
        BlockMatches(env, st1, WithOpen(env.newId(f)), c.value, WithPrefix, WithContent, WithSuffix);
        IdsOfBlock(WithOpen(env.newId(f)), Expected(env.newId, c.value));
      }
    case Cond(c) =>
      ConditionMatches(env, st, c);
    case Conditions(cs) =>
      ConditionsMatches(env, st, cs);
  }

  lemma {:induction false} FragmentMatches(env: Env, st: Emit, ch: seq<Node>)
    requires env.canTemplate && NoFailuresFrom(env, st.attempts)
    requires forall i :: 0 <= i < |ch| ==> WellFormed(ch[i])
    ensures Matches(st, InitFragment(env, st, ch), ExpectedSeq(env.newId, ch))
    decreases SeqSize(ch), 0
  {
    if |ch| > 0 {
      var first := Init(env, st, ch[0]);
      InitMatches(env, st, ch[0]);
      FragmentMatches(env, first.st, ch[1..]);
      MatchesCompose(st, first, Expected(env.newId, ch[0]),
                     InitFragment(env, first.st, ch[1..]), ExpectedSeq(env.newId, ch[1..]));
    }
  }

  lemma {:induction false} BlockMatches(env: Env, st: Emit, open: Token, content: Node, pre: Phase, mid: Phase, post: Phase)
    requires TokenIds(open) <= st.registry.Keys
    requires env.canTemplate && WellFormed(content) && NoFailuresFrom(env, st.attempts)
    ensures Matches(st, Block(env, st, open, content, pre, mid, post), [open] + Expected(env.newId, content) + [End])
    decreases Size(content), 1
  {
    var prefix := Write(env, st, open);
    IdsOfSingle(open);
    InitMatches(env, prefix.st, content);
    var body := Init(env, prefix.st, content);
    MatchesCompose(st, prefix, [open], body, Expected(env.newId, content));
    IdsOfSingle(End);
    MatchesCompose(st, body, [open] + Expected(env.newId, content), Write(env, body.st, End), [End]);
  }

  lemma {:induction false} ConditionMatches(env: Env, st: Emit, c: Condition)
    requires env.canTemplate && EntryWellFormed(c) && NoFailuresFrom(env, st.attempts)
    ensures Matches(st, InitCondition(env, st, c), ExpectedCondition(env.newId, c))
    decreases CondSize(c), 1
  {
    if c.content.Some? {
      assert CondSize(c) == 2 + Size(c.content.value);
      if c.pred.None? {
        InitMatches(env, st, c.content.value);
      } else {
        var id := env.newId(c.pred.value);
        var st1 := Register(env, st, c.pred.value);
        BlockMatches(env, st1, If(id), c.content.value, ConditionPrefix, ConditionContent, ConditionSuffix);
        IdsOfBlock(If(id), Expected(env.newId, c.content.value));
      }
    }
  }

  lemma {:induction false} ConditionsMatches(env: Env, st: Emit, cs: seq<Condition>)
    requires env.canTemplate && ChainWellFormed(cs) && NoFailuresFrom(env, st.attempts)
    ensures Matches(st, InitConditions(env, st, cs), Expected(env.newId, Conditions(cs)))
    decreases CondsSize(cs) + 1, 1
  {
    if |cs| == 1 {
      assert CondsSize(cs) == CondSize(cs[0]) + CondsSize(cs[1..]);
      ConditionMatches(env, st, cs[0]);
    } else if |cs| >= 2 {
      assert cs[0..] == cs;
      var loop := Guards(env, st, cs, 0, [], 0);
      GuardsMatch(env, st, cs, 0, [], 0);
      FallbackWellFormed(cs);
      CloseMatches(env, loop.out.st, loop.elses, loop.branches);
      ChainCompose(env.newId, st, cs, loop, CloseChain(env, loop.out.st, loop.elses, loop.branches));
    }
  }

  lemma ChainCompose(gen: Callback -> string, st: Emit, cs: seq<Condition>, loop: Loop, close: Outcome)
    requires |cs| >= 2
    requires Matches(st, loop.out, GuardBlocks(gen, Guarded(cs), true))
    requires loop.elses == Fallback(cs) && loop.branches == |Guarded(cs)|
    requires Matches(loop.out.st, close, CloseTokens(gen, loop.elses, loop.branches))
    ensures Matches(st, close, ChainTokens(gen, cs))
  {
    var k := |Guarded(cs)|;
    var g := GuardBlocks(gen, Guarded(cs), true);
    var e: seq<Token> := if k > 0 && |Fallback(cs)| > 0 then [Else] else [];
    var f := ExpectedSeq(gen, Fallback(cs));
    var n: seq<Token> := if k > 0 then [End] else [];
    assert ChainTokens(gen, cs) == g + e + f + n;
    assert g + (e + f + n) == g + e + f + n;
    MatchesCompose(st, loop.out, g, close, e + f + n);
  }

  /** What the end of a chain writes. */
  function CloseTokens(gen: Callback -> string, elses: seq<Node>, branches: nat): seq<Token>
  {
    (if branches > 0 && |elses| > 0 then [Else] else [])
    + ExpectedSeq(gen, elses)
    + (if branches > 0 then [End] else [])
  }

  /** The loop writes one guarded branch per predicate entry, `if` first and
      `else if` after, collects the fallback contents in input order, and
      counts exactly the predicate entries. */
  lemma {:induction false} GuardsMatch(env: Env, st: Emit, cs: seq<Condition>, i: nat, elses: seq<Node>, branches: nat)
    requires i <= |cs| && |cs| >= 2
    requires env.canTemplate && ChainWellFormed(cs) && NoFailuresFrom(env, st.attempts)
    ensures LoopMatches(env.newId, st, cs, i, elses, branches, Guards(env, st, cs, i, elses, branches))
    decreases CondsSize(cs[i..]), 3
  {
    if i == |cs| {
      assert cs[i..] == [];
    } else {
      CondsSizeStep(cs, i);
      SplitsStep(cs, i);
      if cs[i].pred.None? {
        UnguardedStep(env, st, cs, i, elses, branches);
      } else {
        GuardedStep(env, st, cs, i, elses, branches);
      }
    }
  }

  /** What `GuardsMatch` promises about the loop's result `r` from entry `i`. */
  ghost predicate LoopMatches(gen: Callback -> string, st: Emit, cs: seq<Condition>, i: nat,
                              elses: seq<Node>, branches: nat, r: Loop)
    requires i <= |cs|
  {
    && Matches(st, r.out, GuardBlocks(gen, Guarded(cs[i..]), branches == 0))
    && r.elses == elses + Fallback(cs[i..])
    && r.branches == branches + |Guarded(cs[i..])|
  }

  lemma {:induction false} UnguardedStep(env: Env, st: Emit, cs: seq<Condition>, i: nat, elses: seq<Node>, branches: nat)
    requires i < |cs| && |cs| >= 2 && cs[i].pred.None?
    requires env.canTemplate && ChainWellFormed(cs) && NoFailuresFrom(env, st.attempts)
    ensures LoopMatches(env.newId, st, cs, i, elses, branches, Guards(env, st, cs, i, elses, branches))
    decreases CondsSize(cs[i..]), 1
  {
    CondsSizeStep(cs, i);
    var c := cs[i];
    var elses' := if c.content.Some? then elses + [c.content.value] else elses;
    GuardsSkip(env, st, cs, i, elses, branches);
    GuardsMatch(env, st, cs, i + 1, elses', branches);
    SkipKeeps(env.newId, st, cs, i, elses, branches, Guards(env, st, cs, i + 1, elses', branches));
  }

  lemma SkipKeeps(gen: Callback -> string, st: Emit, cs: seq<Condition>, i: nat, elses: seq<Node>, branches: nat, r: Loop)
    requires i < |cs| && cs[i].pred.None?
    requires LoopMatches(gen, st, cs, i + 1,
                         if cs[i].content.Some? then elses + [cs[i].content.value] else elses, branches, r)
    ensures LoopMatches(gen, st, cs, i, elses, branches, r)
  {
    SplitsStep(cs, i);
    var elses' := if cs[i].content.Some? then elses + [cs[i].content.value] else elses;
    assert elses' + Fallback(cs[i + 1..]) == elses + Fallback(cs[i..]);
    assert Guarded(cs[i..]) == Guarded(cs[i + 1..]);
  }

  lemma {:induction false} GuardedStep(env: Env, st: Emit, cs: seq<Condition>, i: nat, elses: seq<Node>, branches: nat)
    requires i < |cs| && |cs| >= 2 && cs[i].pred.Some?
    requires env.canTemplate && ChainWellFormed(cs) && NoFailuresFrom(env, st.attempts)
    ensures LoopMatches(env.newId, st, cs, i, elses, branches, Guards(env, st, cs, i, elses, branches))
    decreases CondsSize(cs[i..]), 2
  {
    var branch := Branch(env, st, cs[i], i, branches);
    BranchInChain(env, st, cs, i, branches);
    RestMatches(env, cs, i, elses, branches, branch.st);
    TakeKeeps(env.newId, st, cs, i, elses, branches, branch, Guards(env, branch.st, cs, i + 1, elses, branches + 1));
    GuardsTake(env, st, cs, i, elses, branches, branch);
  }

  lemma {:induction false} BranchInChain(env: Env, st: Emit, cs: seq<Condition>, i: nat, branches: nat)
    requires i < |cs| && |cs| >= 2 && cs[i].pred.Some?
    requires env.canTemplate && ChainWellFormed(cs) && NoFailuresFrom(env, st.attempts)
    ensures cs[i].content.Some?
    ensures var branch := Branch(env, st, cs[i], i, branches);
      Matches(st, branch, GuardTokens(env.newId, cs[i], branches)) && NoFailuresFrom(env, branch.st.attempts)
    decreases CondsSize(cs[i..]), 1
  {
    CondsSizeStep(cs, i);
    assert EntryWellFormed(cs[i]);
    BranchMatches(env, st, cs[i], i, branches);
  }

  lemma {:induction false} RestMatches(env: Env, cs: seq<Condition>, i: nat, elses: seq<Node>, branches: nat, st: Emit)
    requires i < |cs| && |cs| >= 2
    requires env.canTemplate && ChainWellFormed(cs) && NoFailuresFrom(env, st.attempts)
    ensures LoopMatches(env.newId, st, cs, i + 1, elses, branches + 1, Guards(env, st, cs, i + 1, elses, branches + 1))
    decreases CondsSize(cs[i..]), 0
  {
    CondsSizeStep(cs, i);
    GuardsMatch(env, st, cs, i + 1, elses, branches + 1);
  }

  lemma TakeKeeps(gen: Callback -> string, st: Emit, cs: seq<Condition>, i: nat, elses: seq<Node>, branches: nat,
                  branch: Outcome, r: Loop)
    requires i < |cs| && cs[i].pred.Some? && cs[i].content.Some?
    requires Matches(st, branch, GuardTokens(gen, cs[i], branches))
    requires LoopMatches(gen, branch.st, cs, i + 1, elses, branches + 1, r)
    ensures LoopMatches(gen, st, cs, i, elses, branches, r)
  {
    SplitsStep(cs, i);
    var gs := Guarded(cs[i..]);
    var ts := GuardTokens(gen, cs[i], branches);
    assert gs[1..] == Guarded(cs[i + 1..]);
    assert GuardBlocks(gen, gs, branches == 0) == ts + GuardBlocks(gen, Guarded(cs[i + 1..]), false);
    MatchesCompose(st, branch, ts, r.out, GuardBlocks(gen, Guarded(cs[i + 1..]), false));
  }

  lemma GuardsSkip(env: Env, st: Emit, cs: seq<Condition>, i: nat, elses: seq<Node>, branches: nat)
    requires i < |cs| && cs[i].pred.None?
    ensures Guards(env, st, cs, i, elses, branches)
         == Guards(env, st, cs, i + 1, if cs[i].content.Some? then elses + [cs[i].content.value] else elses, branches)
  {
  }

  lemma GuardsTake(env: Env, st: Emit, cs: seq<Condition>, i: nat, elses: seq<Node>, branches: nat, branch: Outcome)
    requires i < |cs| && cs[i].pred.Some?
    requires branch == Branch(env, st, cs[i], i, branches) && branch.status.Ok?
    requires LoopMatches(env.newId, st, cs, i, elses, branches, Guards(env, branch.st, cs, i + 1, elses, branches + 1))
    ensures LoopMatches(env.newId, st, cs, i, elses, branches, Guards(env, st, cs, i, elses, branches))
  {
  }

  /** What one guarded branch writes. */
  function GuardTokens(gen: Callback -> string, c: Condition, branches: nat): seq<Token>
    requires c.pred.Some? && c.content.Some?
  {
    var id := gen(c.pred.value);
    [if branches > 0 then ElseIf(id) else If(id)] + Expected(gen, c.content.value)
  }

  lemma {:induction false} BranchMatches(env: Env, st: Emit, c: Condition, i: nat, branches: nat)
    requires c.pred.Some? && c.content.Some? && WellFormed(c.content.value)
    requires env.canTemplate && NoFailuresFrom(env, st.attempts)
    ensures Matches(st, Branch(env, st, c, i, branches), GuardTokens(env.newId, c, branches))
    decreases CondSize(c), 0
  {
    assert CondSize(c) == 2 + Size(c.content.value);
    var id := env.newId(c.pred.value);
    var tok := if branches > 0 then ElseIf(id) else If(id);
    var guard := Write(env, Register(env, st, c.pred.value), tok);
    IdsOfSingle(tok);
    InitMatches(env, guard.st, c.content.value);
    MatchesCompose(st, guard, [tok], Init(env, guard.st, c.content.value), Expected(env.newId, c.content.value));
  }

  lemma {:induction false} CloseMatches(env: Env, st: Emit, elses: seq<Node>, branches: nat)
    requires env.canTemplate && NoFailuresFrom(env, st.attempts)
    requires forall k :: 0 <= k < |elses| ==> WellFormed(elses[k])
    ensures Matches(st, CloseChain(env, st, elses, branches), CloseTokens(env.newId, elses, branches))
    decreases SeqSize(elses), 2
  {
    if |elses| > 0 {
      FallbackBlockMatches(env, st, elses, branches);
    } else {
      TerminateMatches(env, st, branches);
      assert CloseTokens(env.newId, elses, branches) == (if branches > 0 then [End] else []);
    }
  }

  lemma TerminateMatches(env: Env, st: Emit, branches: nat)
    requires NoFailuresFrom(env, st.attempts)
    ensures Matches(st, Terminate(env, st, branches), if branches > 0 then [End] else [])
  {
    IdsOfSingle(End);
  }

  lemma {:induction false} FallbackBlockMatches(env: Env, st: Emit, elses: seq<Node>, branches: nat)
    requires |elses| > 0
    requires env.canTemplate && NoFailuresFrom(env, st.attempts)
    requires forall k :: 0 <= k < |elses| ==> WellFormed(elses[k])
    ensures Matches(st, CloseChain(env, st, elses, branches), CloseTokens(env.newId, elses, branches))
    decreases SeqSize(elses), 1
  {
    var opening: seq<Token> := if branches > 0 then [Else] else [];
    var closing: seq<Token> := if branches > 0 then [End] else [];
    IdsOfSingle(Else);
    var elseWrite := if branches > 0 then Write(env, st, Else) else Outcome(st, Ok);
    assert Matches(st, elseWrite, opening);
    FragmentMatches(env, elseWrite.st, elses);
    var fallback := InitFragment(env, elseWrite.st, elses);
    MatchesCompose(st, elseWrite, opening, fallback, ExpectedSeq(env.newId, elses));
    TerminateMatches(env, fallback.st, branches);
    var end := Terminate(env, fallback.st, branches);
    assert CloseChain(env, st, elses, branches) == end;
    MatchesCompose(st, fallback, opening + ExpectedSeq(env.newId, elses), end, closing);
  }
}

=== FILE: framework.dfy ===
/**
  The compilation context (the Go `Framework`) and the output stream.

  The fixed part of a compilation pass is an `Env`: whether templating is
  available (`CanTemplate`), the identifier generator (`NewFunctionID`) and the
  stream's failure oracle. The changing part is an `Emit`: what has been
  written, the function registry (`Template.Funcs`) and how many writes were
  attempted.

  A write carries one `Token`; the stream's text is the rendering of the tokens
  written so far, each rendered in exactly the format the source passes to
  `fmt.Sprintf`.
 */
module Framework {
  import opened Nodes

  /** One piece of template source, as written by one `Raw(...).Init` call. */
  datatype Token =
    | Lit(text: string)                  // a literal
    | Bind(name: string, id: string)     // {{name := id $r}}
    | WithOpen(id: string)               // {{with id $r}}
    | If(id: string)                     // {{if id $r}}
    | ElseIf(id: string)                 // {{else if id $r}}
    | Else                               // {{else}}
    | End                                // {{end}}

  /** `Condition.ConditionString`: the guard without its delimiters. */
  function ConditionString(id: string): (s: string)
    ensures |s| == |id| + 6
    ensures s[..3] == "if " && s[3..3 + |id|] == id
    ensures s[3 + |id|..] == " $r"
  {
    "if " + id + " $r"
  }

  function Render(t: Token): string
  {
    match t
    case Lit(s) => s
    case Bind(name, id) => "{{" + name + " := " + id + " $r}}"
    case WithOpen(id) => "{{with " + id + " $r}}"
    case If(id) => "{{" + ConditionString(id) + "}}"
    case ElseIf(id) => "{{" + "else " + ConditionString(id) + "}}"
    case Else => "{{else}}"
    case End => "{{end}}"
  }

  /** The text of a token sequence. */
  function RenderAll(ts: seq<Token>): string
  {
    if |ts| == 0 then "" else RenderAll(ts[..|ts| - 1]) + Render(ts[|ts| - 1])
  }

  lemma {:induction false} RenderAllAppend(a: seq<Token>, b: seq<Token>)
    ensures RenderAll(a + b) == RenderAll(a) + RenderAll(b)
    decreases |b|
  {
    if |b| > 0 {
      assert (a + b)[..|a + b| - 1] == a + b[..|b| - 1];
      RenderAllAppend(a, b[..|b| - 1]);
    } else {
      assert a + b == a;
    }
  }

  /** The generated identifiers a token refers to. */
  function TokenIds(t: Token): set<string>
  {
    match t
    case Bind(_, id) => {id}
    case WithOpen(id) => {id}
    case If(id) => {id}
    case ElseIf(id) => {id}
    case _ => {}
  }

  function IdsOf(ts: seq<Token>): set<string>
  {
    if |ts| == 0 then {} else TokenIds(ts[0]) + IdsOf(ts[1..])
  }

  lemma {:induction false} IdsOfAppend(a: seq<Token>, b: seq<Token>)
    ensures IdsOf(a + b) == IdsOf(a) + IdsOf(b)
    decreases |a|
  {
    if |a| == 0 {
      assert a + b == b;
    } else {
      assert (a + b)[1..] == a[1..] + b;
      IdsOfAppend(a[1..], b);
    }
  }

  /** The fixed part of one compilation pass. `failAt` holds the indices of the
      write attempts at which the output stream reports an error. */
  datatype Env = Env(canTemplate: bool, newId: Callback -> string, failAt: set<nat>)

  /** The changing part: the tokens written, the function registry and the
      number of write attempts so far. */
  datatype Emit = Emit(out: seq<Token>, registry: map<string, Callback>, attempts: nat)

  function Text(st: Emit): string
  {
    RenderAll(st.out)
  }

  /** The stage whose failure an error is wrapped with (`fmt.Errorf` with `%w`). */
  datatype Phase =
    | WithPrefix | WithContent | WithSuffix
    | ConditionPrefix | ConditionContent | ConditionSuffix
    | EntryGuard(index: nat) | EntryContent(index: nat)
    | ChainElse | ChainEnd

  datatype Error =
    | CannotTemplate                       // ErrCannotTemplate
    | WriteFailed(attempt: nat)            // the stream's own error
    | Wrapped(phase: Phase, cause: Error)

  /** `Panicked(i)` is the Go runtime panic of calling `Init` on the nil
      `Content` of chain entry `i`; it is not an error value and unwinds
      through every caller. */
  datatype Status = Ok | Failed(error: Error) | Panicked(index: nat)

  datatype Outcome = Outcome(st: Emit, status: Status)

  /** The innermost cause of a (possibly wrapped) error. */
  function Root(e: Error): (r: Error)
    ensures !r.Wrapped?
  {
    match e
    case Wrapped(_, cause) => Root(cause)
    case _ => e
  }

  ghost predicate Injective(gen: Callback -> string)
  {
    forall a, b :: gen(a) == gen(b) ==> a == b
  }

  /** Every registered identifier is the one the generator gives its callback. */
  ghost predicate Consistent(gen: Callback -> string, registry: map<string, Callback>)
  {
    forall k :: k in registry ==> gen(registry[k]) == k
  }

  /** No identifier in the written text lacks a registry entry. */
  ghost predicate Closed(st: Emit)
  {
    forall k :: 0 <= k < |st.out| ==> TokenIds(st.out[k]) <= st.registry.Keys
  }

  /** The stream is append-only and the registry only gains keys. */
  ghost predicate Extends(a: Emit, b: Emit)
  {
    && a.out <= b.out
    && a.registry.Keys <= b.registry.Keys
    && a.attempts <= b.attempts
  }

  /** What every step of compilation keeps: append-only output, a growing
      registry, no dangling identifier, and identifiers that match their
      callbacks. */
  ghost predicate Evolves(env: Env, a: Emit, b: Emit)
  {
    && Extends(a, b)
    && (Closed(a) ==> Closed(b))
    && (Consistent(env.newId, a.registry) ==> Consistent(env.newId, b.registry))
  }

  lemma EvolvesTransitive(env: Env, a: Emit, b: Emit, c: Emit)
    requires Evolves(env, a, b) && Evolves(env, b, c)
    ensures Evolves(env, a, c)
  {
  }

  /** A reported stream error is the last write attempted: nothing is written
      after a failure that is propagated. */
  ghost predicate FailStop(env: Env, r: Outcome)
  {
    r.status.Failed? && Root(r.status.error).WriteFailed? ==>
      && 0 < r.st.attempts
      && Root(r.status.error).attempt == r.st.attempts - 1
      && r.st.attempts - 1 in env.failAt
  }

  /** `Raw(s).Init(f, w)`: one write attempt. The token may only name
      identifiers that are already registered. A failed write appends nothing,
      but it still counts as an attempt. */
  function Write(env: Env, st: Emit, t: Token): (r: Outcome)
    requires TokenIds(t) <= st.registry.Keys
    ensures r.st.registry == st.registry && r.st.attempts == st.attempts + 1
    ensures r.status.Ok? <==> st.attempts !in env.failAt
    ensures r.status.Ok? ==> r.st.out == st.out + [t]
    ensures !r.status.Ok? ==> r.st.out == st.out && r.status == Failed(WriteFailed(st.attempts))
  {
    if st.attempts in env.failAt then
      Outcome(st.(attempts := st.attempts + 1), Failed(WriteFailed(st.attempts)))
    else
      Outcome(st.(out := st.out + [t], attempts := st.attempts + 1), Ok)
  }

  /** A successful write extends the text by exactly the token's rendering. */
  lemma WriteText(env: Env, st: Emit, t: Token)
    requires TokenIds(t) <= st.registry.Keys && st.attempts !in env.failAt
    ensures Text(Write(env, st, t).st) == Text(st) + Render(t)
  {
    var out := st.out + [t];
    assert out[..|out| - 1] == st.out;
  }

  lemma WriteKeeps(env: Env, st: Emit, t: Token)
    requires TokenIds(t) <= st.registry.Keys
    ensures Evolves(env, st, Write(env, st, t).st) && FailStop(env, Write(env, st, t))
  {
  }

  /** `f.Generator.NewFunctionID(cb)` followed by `f.Template.Funcs(...)`: the
      generated identifier now resolves to `cb` (a plain map insert). */
  function Register(env: Env, st: Emit, cb: Callback): (r: Emit)
    ensures r.registry.Keys == st.registry.Keys + {env.newId(cb)}
    ensures r.registry[env.newId(cb)] == cb
    ensures forall k :: k in st.registry && k != env.newId(cb) ==> r.registry[k] == st.registry[k]
    ensures r.out == st.out && r.attempts == st.attempts
  {
    st.(registry := st.registry[env.newId(cb) := cb])
  }

  lemma RegisterKeeps(env: Env, st: Emit, cb: Callback)
    ensures Evolves(env, st, Register(env, st, cb))
  {
  }
}

=== FILE: invariants.dfy ===
/**
  What compilation keeps whatever the stream does. From any state, every
  `Init` leaves the written tokens as a prefix of what it finds afterwards,
  only adds registry entries, never writes an identifier it has not registered
  first (`Closed` is kept), keeps every registered identifier equal to the one
  the generator gives its callback, and, when it reports a stream error, that
  error is its last write attempt: nothing is written after a failure that is
  propagated.
 */
module Invariants {
  import opened Nodes
  import opened Framework
  import opened Template

  /** `r` evolved from `st` and stopped at its reported stream error. */
  ghost predicate Keeps(env: Env, st: Emit, r: Outcome)
  {
    Evolves(env, st, r.st) && FailStop(env, r)
  }

  lemma {:induction false} InitKeeps(env: Env, st: Emit, n: Node)
    ensures Keeps(env, st, Init(env, st, n))
    decreases Size(n), 0
  {
    match n
    case Raw(s) => WriteKeeps(env, st, Lit(s));
    case Fragment(ch) => FragmentKeeps(env, st, ch);
    case Variable(name, f) => VariableKeeps(env, st, name, f);
    case With(f, c) => WithKeeps(env, st, f, c);
    case Cond(c) => ConditionKeeps(env, st, c);
    case Conditions(cs) => ConditionsKeeps(env, st, cs);
  }

  lemma {:induction false} FragmentKeeps(env: Env, st: Emit, ch: seq<Node>)
    ensures Keeps(env, st, InitFragment(env, st, ch))
    decreases SeqSize(ch), 0
  {
    if |ch| > 0 {
      var first := Init(env, st, ch[0]);
      InitKeeps(env, st, ch[0]);
      if first.status.Ok? {
        var rest := InitFragment(env, first.st, ch[1..]);
        FragmentKeeps(env, first.st, ch[1..]);
        EvolvesTransitive(env, st, first.st, rest.st);
      }
    }
  }

  lemma VariableKeeps(env: Env, st: Emit, name: string, f: Callback)
    ensures Keeps(env, st, InitVariable(env, st, name, f))
  {
    if env.canTemplate {
      var st1 := Register(env, st, f);
      RegisterKeeps(env, st, f);
      WriteKeeps(env, st1, Bind(name, env.newId(f)));
      EvolvesTransitive(env, st, st1, InitVariable(env, st, name, f).st);
    }
  }

  lemma {:induction false} WithKeeps(env: Env, st: Emit, f: Callback, content: Option<Node>)
    ensures Keeps(env, st, InitWith(env, st, f, content))
    decreases OptSize(content), 1
  {
    if env.canTemplate && content.Some? {
      var st1 := Register(env, st, f);
      RegisterKeeps(env, st, f);
      BlockKeeps(env, st1, WithOpen(env.newId(f)), content.value, WithPrefix, WithContent, WithSuffix);
      EvolvesTransitive(env, st, st1, InitWith(env, st, f, content).st);
    }
  }

  lemma {:induction false} ConditionKeeps(env: Env, st: Emit, c: Condition)
    ensures Keeps(env, st, InitCondition(env, st, c))
    decreases CondSize(c), 1
  {
    if env.canTemplate && c.content.Some? {
      assert CondSize(c) == 2 + Size(c.content.value);
      if c.pred.None? {
        InitKeeps(env, st, c.content.value);
      } else {
        var st1 := Register(env, st, c.pred.value);
        RegisterKeeps(env, st, c.pred.value);
        BlockKeeps(env, st1, If(env.newId(c.pred.value)), c.content.value,
                   ConditionPrefix, ConditionContent, ConditionSuffix);
        EvolvesTransitive(env, st, st1, InitCondition(env, st, c).st);
      }
    }
  }

  lemma {:induction false} BlockKeeps(env: Env, st: Emit, open: Token, content: Node, pre: Phase, mid: Phase, post: Phase)
    requires TokenIds(open) <= st.registry.Keys
    ensures Keeps(env, st, Block(env, st, open, content, pre, mid, post))
    decreases Size(content), 1
  {
    var prefix := Write(env, st, open);
    WriteKeeps(env, st, open);
    if prefix.status.Ok? {
      var body := Init(env, prefix.st, content);
      InitKeeps(env, prefix.st, content);
      EvolvesTransitive(env, st, prefix.st, body.st);
      if body.status.Ok? {
        var suffix := Write(env, body.st, End);
        WriteKeeps(env, body.st, End);
        EvolvesTransitive(env, st, body.st, suffix.st);
      }
    }
  }

  lemma {:induction false} ConditionsKeeps(env: Env, st: Emit, cs: seq<Condition>)
    ensures Keeps(env, st, InitConditions(env, st, cs))
    decreases CondsSize(cs) + 1, 1
  {
    if env.canTemplate && |cs| == 1 {
      assert CondsSize(cs) == CondSize(cs[0]) + CondsSize(cs[1..]);
      ConditionKeeps(env, st, cs[0]);
    } else if env.canTemplate && |cs| > 1 {
      assert cs[0..] == cs;
      var loop := Guards(env, st, cs, 0, [], 0);
      GuardsKeeps(env, st, cs, 0, [], 0);
      if loop.out.status.Ok? {
        CloseKeeps(env, loop.out.st, loop.elses, loop.branches);
        EvolvesTransitive(env, st, loop.out.st, CloseChain(env, loop.out.st, loop.elses, loop.branches).st);
      }
    }
  }

  lemma {:induction false} GuardsKeeps(env: Env, st: Emit, cs: seq<Condition>, i: nat, elses: seq<Node>, branches: nat)
    requires i <= |cs|
    ensures Keeps(env, st, Guards(env, st, cs, i, elses, branches).out)
    decreases CondsSize(cs[i..]), 2
  {
    if i < |cs| {
      CondsSizeStep(cs, i);
      var c := cs[i];
      if c.pred.None? {
        if c.content.Some? {
          SeqSizeSnoc(elses, c.content.value);
          GuardsKeeps(env, st, cs, i + 1, elses + [c.content.value], branches);
        } else {
          GuardsKeeps(env, st, cs, i + 1, elses, branches);
        }
      } else {
        var branch := Branch(env, st, c, i, branches);
        BranchKeeps(env, st, c, i, branches);
        if branch.status.Ok? {
          GuardsKeeps(env, branch.st, cs, i + 1, elses, branches + 1);
          EvolvesTransitive(env, st, branch.st, Guards(env, branch.st, cs, i + 1, elses, branches + 1).out.st);
        }
      }
    }
  }

  lemma {:induction false} BranchKeeps(env: Env, st: Emit, c: Condition, i: nat, branches: nat)
    requires c.pred.Some?
    ensures Keeps(env, st, Branch(env, st, c, i, branches))
    decreases CondSize(c), 1
  {
    var id := env.newId(c.pred.value);
    var st1 := Register(env, st, c.pred.value);
    var head := if branches > 0 then ElseIf(id) else If(id);
    var guard := Write(env, st1, head);
    RegisterKeeps(env, st, c.pred.value);
    WriteKeeps(env, st1, head);
    EvolvesTransitive(env, st, st1, guard.st);
    if guard.status.Ok? && c.content.Some? {
      assert CondSize(c) == 2 + Size(c.content.value);
      InitKeeps(env, guard.st, c.content.value);
      EvolvesTransitive(env, st, guard.st, Init(env, guard.st, c.content.value).st);
    }
  }

  lemma {:induction false} CloseKeeps(env: Env, st: Emit, elses: seq<Node>, branches: nat)
    ensures Keeps(env, st, CloseChain(env, st, elses, branches))
    decreases SeqSize(elses), 1
  {
    if |elses| > 0 {
      var elseWrite := if branches > 0 then Write(env, st, Else) else Outcome(st, Ok);
      if branches > 0 {
        WriteKeeps(env, st, Else);
      }
      if elseWrite.status.Ok? {
        var fallback := InitFragment(env, elseWrite.st, elses);
        FragmentKeeps(env, elseWrite.st, elses);
        EvolvesTransitive(env, st, elseWrite.st, fallback.st);
        if !fallback.status.Panicked? {
          TerminateKeeps(env, fallback.st, branches);
          EvolvesTransitive(env, st, fallback.st, Terminate(env, fallback.st, branches).st);
        }
      }
    } else {
      TerminateKeeps(env, st, branches);
    }
  }

  lemma TerminateKeeps(env: Env, st: Emit, branches: nat)
    ensures Keeps(env, st, Terminate(env, st, branches))
  {
    if branches > 0 {
      WriteKeeps(env, st, End);
    }
  }
}

=== FILE: nesting.dfy ===
/**
  Directive nesting. The reference template of every tree closes each scope it
  opens, and `else if` / `else` only ever continue an open `if`; hence a
  compilation on a stream that never fails writes a well-nested template.
  On a failing stream the discarded fallback error can break this (see
  `Scenarios.LostEndUnbalances`).
 */
module Nesting {
  import opened Nodes
  import opened Framework
  import opened Template
  import opened Reference
  import opened Agreement

  lemma {:induction false} RunAppend(a: seq<Token>, b: seq<Token>, s: seq<Scope>)
    ensures Run(a + b, s) == (match Run(a, s) case None => None case Some(s1) => Run(b, s1))
    decreases |a|
  {
    if |a| == 0 {
      assert a + b == b;
    } else {
      assert (a + b)[0] == a[0];
      assert (a + b)[1..] == a[1..] + b;
      match Step(a[0], s) {
        case None =>
        case Some(s1) => RunAppend(a[1..], b, s1);
      }
    }
  }

  lemma RunThen(a: seq<Token>, b: seq<Token>, s: seq<Scope>, s1: seq<Scope>, s2: seq<Scope>)
    requires Run(a, s) == Some(s1) && Run(b, s1) == Some(s2)
    ensures Run(a + b, s) == Some(s2)
  {
    RunAppend(a, b, s);
  }

  lemma RunSingle(t: Token, s: seq<Scope>)
    ensures Run([t], s) == Step(t, s)
  {
    assert [t][1..] == [];
  }

  /** `open` pushes a scope, the body leaves the stack as it found it, and
      `{{end}}` pops the scope again. */
  lemma BlockBalanced(open: Token, body: seq<Token>, s: seq<Scope>, top: Scope)
    requires Step(open, s) == Some(s + [top])
    requires Run(body, s + [top]) == Some(s + [top])
    ensures Run([open] + body + [End], s) == Some(s)
  {
    RunSingle(open, s);
    RunThen([open], body, s, s + [top], s + [top]);
    RunSingle(End, s + [top]);
    assert (s + [top])[..|s|] == s;
    RunThen([open] + body, [End], s, s + [top], s);
  }

  /** The reference template of any tree, written in any scope, returns to
      that scope. */
  lemma {:induction false} ExpectedBalanced(gen: Callback -> string, n: Node, s: seq<Scope>)
    ensures Run(Expected(gen, n), s) == Some(s)
    decreases Size(n), 2
  {
    match n
    case Raw(t) =>
      RunSingle(Lit(t), s);
    case Fragment(ch) =>
      SeqBalanced(gen, ch, s);
    case Variable(name, f) =>
      RunSingle(Bind(name, gen(f)), s);
    case With(f, c) =>
      if c.Some? {
        assert Size(n) == 2 + Size(c.value);
        ExpectedBalanced(gen, c.value, s + [WithScope]);
        BlockBalanced(WithOpen(gen(f)), Expected(gen, c.value), s, WithScope);
      }
    case Cond(c) =>
      ConditionBalanced(gen, c, s);
    case Conditions(cs) =>
      if |cs| == 1 {
        assert CondsSize(cs) == CondSize(cs[0]) + CondsSize(cs[1..]);
        ConditionBalanced(gen, cs[0], s);
      } else if |cs| >= 2 {
        ChainBalanced(gen, cs, s);
      }
  }

  lemma {:induction false} SeqBalanced(gen: Callback -> string, ns: seq<Node>, s: seq<Scope>)
    ensures Run(ExpectedSeq(gen, ns), s) == Some(s)
    decreases SeqSize(ns), 2
  {
    if |ns| > 0 {
      ExpectedBalanced(gen, ns[0], s);
      SeqBalanced(gen, ns[1..], s);
      RunThen(Expected(gen, ns[0]), ExpectedSeq(gen, ns[1..]), s, s, s);
    }
  }

  lemma {:induction false} ConditionBalanced(gen: Callback -> string, c: Condition, s: seq<Scope>)
    ensures Run(ExpectedCondition(gen, c), s) == Some(s)
    decreases CondSize(c), 2
  {
    if c.content.Some? {
      assert CondSize(c) == 2 + Size(c.content.value);
      if c.pred.None? {
        ExpectedBalanced(gen, c.content.value, s);
      } else {
        ExpectedBalanced(gen, c.content.value, s + [IfScope(false)]);
        BlockBalanced(If(gen(c.pred.value)), Expected(gen, c.content.value), s, IfScope(false));
      }
    }
  }

  /** The guarded branches open one `if` scope (when there is a branch) and
      leave it open, with no `else` seen, for the fallback and the `end`. */
  lemma {:induction false} GuardBlocksRun(gen: Callback -> string, gs: seq<Condition>, first: bool, s: seq<Scope>)
    requires forall k :: 0 <= k < |gs| ==> gs[k].pred.Some?
    requires !first ==> |s| > 0 && s[|s| - 1] == IfScope(false)
    ensures Run(GuardBlocks(gen, gs, first), s) == Some(if first && |gs| > 0 then s + [IfScope(false)] else s)
    decreases CondsSize(gs), 1
  {
    if |gs| > 0 {
      var id := gen(gs[0].pred.value);
      var head := if first then If(id) else ElseIf(id);
      var s1 := if first then s + [IfScope(false)] else s;
      var body: seq<Token> := match gs[0].content case None => [] case Some(n) => Expected(gen, n);
      assert CondsSize(gs) == 1 + OptSize(gs[0].content) + CondsSize(gs[1..]);
      RunSingle(head, s);
      if gs[0].content.Some? {
        ExpectedBalanced(gen, gs[0].content.value, s1);
      }
      RunThen([head], body, s, s1, s1);
      GuardBlocksRun(gen, gs[1..], false, s1);
      RunThen([head] + body, GuardBlocks(gen, gs[1..], false), s, s1, s1);
    }
  }

  lemma {:induction false} ChainBalanced(gen: Callback -> string, cs: seq<Condition>, s: seq<Scope>)
    ensures Run(ChainTokens(gen, cs), s) == Some(s)
    decreases CondsSize(cs), 3
  {
    var gs := Guarded(cs);
    var fb := Fallback(cs);
    var g := GuardBlocks(gen, gs, true);
    var e: seq<Token> := if |gs| > 0 && |fb| > 0 then [Else] else [];
    var f := ExpectedSeq(gen, fb);
    var n: seq<Token> := if |gs| > 0 then [End] else [];
    GuardBlocksRun(gen, gs, true, s);
    if |gs| == 0 {
      SeqBalanced(gen, fb, s);
      assert ChainTokens(gen, cs) == f;
    } else {
      var open := s + [IfScope(false)];
      var inside := if |fb| > 0 then s + [IfScope(true)] else open;
      RunSingle(Else, open);
      assert open[..|open| - 1] == s;
      assert Run(e, open) == Some(inside);
      RunThen(g, e, s, open, inside);
      SeqBalanced(gen, fb, inside);
      RunThen(g + e, f, s, inside, inside);
      RunSingle(End, inside);
      assert inside[..|inside| - 1] == s;
      RunThen(g + e + f, n, s, inside, s);
    }
  }

  /** A compilation on a stream that never fails succeeds and writes a
      well-nested template. */
  lemma CompiledWellNested(env: Env, st: Emit, n: Node)
    requires env.canTemplate && WellFormed(n) && NoFailuresFrom(env, st.attempts)
    ensures var r := Init(env, st, n);
      r.status.Ok? && |st.out| <= |r.st.out| && WellNested(r.st.out[|st.out|..])
  {
    var r := Init(env, st, n);
    InitMatches(env, st, n);
    assert r.st.out[|st.out|..] == Expected(env.newId, n);
    forall s: seq<Scope>
      ensures Run(Expected(env.newId, n), s) == Some(s)
    {
      ExpectedBalanced(env.newId, n, s);
    }
  }
}

=== FILE: nodes.dfy ===
/**
  The component tree that the template compiler consumes.

  A tree is immutable input: compilation only reads it. Besides the four
  directive-emitting kinds of v2/template.go (`Variable`, `With`, `Condition`,
  `Conditions`) it holds the two structural kinds they are built from: `Raw`
  (a literal piece of template source) and `Fragment` (children compiled in
  order). A Go `nil` Component is `None`.
 */
module Nodes {

  datatype Option<+T> = None | Some(value: T)

  /** The identity of a render-time callback (a Go func value). Compilation
      never calls a callback; it only names and registers it. */
  datatype Callback = Callback(ident: nat)

  datatype Node =
    | Raw(text: string)
    | Fragment(children: seq<Node>)
    | Variable(name: string, func: Callback)
    | With(func: Callback, content: Option<Node>)
    | Cond(condition: Condition)
    | Conditions(entries: seq<Condition>)

  /** One entry of a condition chain, or a stand-alone guarded block. A `None`
      predicate marks unconditional (fallback) content. */
  datatype Condition = Condition(pred: Option<Callback>, content: Option<Node>)

  /* Sizes: the termination measure shared by the compiler and the reference
     definitions. Every container counts one more than its parts. */

  function Size(n: Node): nat
  {
    match n
    case Raw(_) => 1
    case Fragment(ch) => 1 + SeqSize(ch)
    case Variable(_, _) => 1
    case With(_, c) => 1 + OptSize(c)
    case Cond(c) => 1 + CondSize(c)
    case Conditions(cs) => 2 + CondsSize(cs)
  }

  function OptSize(c: Option<Node>): nat
  {
    match c
    case None => 0
    case Some(n) => 1 + Size(n)
  }

  function CondSize(c: Condition): nat
  {
    1 + OptSize(c.content)
  }

  function SeqSize(ns: seq<Node>): nat
  {
    if |ns| == 0 then 0 else Size(ns[0]) + 1 + SeqSize(ns[1..])
  }

  function CondsSize(cs: seq<Condition>): nat
  {
    if |cs| == 0 then 0 else CondSize(cs[0]) + CondsSize(cs[1..])
  }

  lemma {:induction false} SeqSizeSnoc(ns: seq<Node>, n: Node)
    ensures SeqSize(ns + [n]) == SeqSize(ns) + Size(n) + 1
    decreases |ns|
  {
    if |ns| > 0 {
      assert (ns + [n])[1..] == ns[1..] + [n];
      SeqSizeSnoc(ns[1..], n);
    }
  }

  lemma CondsSizeStep(cs: seq<Condition>, i: nat)
    requires i < |cs|
    ensures CondsSize(cs[i..]) == CondSize(cs[i]) + CondsSize(cs[i + 1..])
  {
    assert cs[i..][1..] == cs[i + 1..];
  }

  /** A tree in which no chain of two or more entries has a guarded entry
      without content. Compiling such an entry dereferences a nil Component
      (v2/template.go:119-126). With templating available on a stream that
      never fails, every other tree compiles without a panic
      (`Agreement.InitMatches`). */
  predicate WellFormed(n: Node)
  {
    match n
    case Raw(_) => true
    case Variable(_, _) => true
    case Fragment(ch) => forall i :: 0 <= i < |ch| ==> WellFormed(ch[i])
    case With(_, c) => c.Some? ==> WellFormed(c.value)
    case Cond(c) => EntryWellFormed(c)
    case Conditions(cs) => ChainWellFormed(cs)
  }

  predicate EntryWellFormed(c: Condition)
  {
    c.content.Some? ==> WellFormed(c.content.value)
  }

  predicate ChainWellFormed(cs: seq<Condition>)
  {
    forall i :: 0 <= i < |cs| ==>
      EntryWellFormed(cs[i]) && (|cs| >= 2 && cs[i].pred.Some? ==> cs[i].content.Some?)
  }
}

=== FILE: properties.dfy ===
/**
  Properties of each node kind: the capability gate, the exact directive each
  kind writes, which phase a failure is attributed to, and how a chain treats
  its entries. Most hold whatever the stream does. The exact panic of a
  contentless predicate entry (`NilContentEntryPanics` and its helpers
  `GuardsPanic`, `PanicSkipStep`, `PanicTakeStep`, `BranchSucceeds`) is stated
  with templating available on a stream that never fails; on any stream,
  `ContentlessEntryNeverOk` still rules out success.
 */
module Properties {
  import opened Nodes
  import opened Framework
  import opened Template
  import opened Reference
  import opened Agreement
  import opened Invariants

  /* The capability gate (v2/template.go:18-20, 32-34, 65-67, 97-99). */

  /** Between `a` and `b` nothing was registered and only literals were
      written. */
  ghost predicate LiteralsOnly(a: Emit, b: Emit)
  {
    && b.registry == a.registry
    && a.out <= b.out
    && forall k :: |a.out| <= k < |b.out| ==> b.out[k].Lit?
  }

  lemma LiteralsOnlyTransitive(a: Emit, b: Emit, c: Emit)
    requires LiteralsOnly(a, b) && LiteralsOnly(b, c)
    ensures LiteralsOnly(a, c)
  {
    forall k | |a.out| <= k < |c.out|
      ensures c.out[k].Lit?
    {
      if k < |b.out| {
        assert c.out[k] == b.out[k];
      }
    }
  }

  /** Without templating, every directive kind fails with `CannotTemplate`
      before touching the stream or the registry, and a whole tree can at most
      write its literals. */
  lemma {:induction false} GateInit(env: Env, st: Emit, n: Node)
    requires !env.canTemplate
    ensures LiteralsOnly(st, Init(env, st, n).st)
    ensures !n.Raw? && !n.Fragment? ==> Init(env, st, n) == Outcome(st, Failed(CannotTemplate))
    decreases Size(n), 0
  {
    match n
    case Fragment(ch) => GateFragment(env, st, ch);
    case _ =>
  }

  lemma {:induction false} GateFragment(env: Env, st: Emit, ch: seq<Node>)
    requires !env.canTemplate
    ensures LiteralsOnly(st, InitFragment(env, st, ch).st)
    decreases SeqSize(ch), 0
  {
    if |ch| > 0 {
      var first := Init(env, st, ch[0]);
      GateInit(env, st, ch[0]);
      if first.status.Ok? {
        GateFragment(env, first.st, ch[1..]);
        LiteralsOnlyTransitive(st, first.st, InitFragment(env, first.st, ch[1..]).st);
      }
    }
  }

  /* Variable (v2/template.go:17-24). */

  /** The callback is registered under its identifier, then one write of
      `{{name := id $r}}` is attempted; its failure is returned unwrapped. */
  lemma VariableWritesBinding(env: Env, st: Emit, name: string, f: Callback)
    requires env.canTemplate
    ensures var r := Init(env, st, Variable(name, f));
      var id := env.newId(f);
      && r.st.registry == st.registry[id := f]
      && r.st.attempts == st.attempts + 1
      && (r.status.Ok? <==> st.attempts !in env.failAt)
      && (r.status.Ok? ==> r.st.out == st.out + [Bind(name, id)]
                           && Text(r.st) == Text(st) + "{{" + name + " := " + id + " $r}}")
      && (!r.status.Ok? ==> r.st.out == st.out && r.status == Failed(WriteFailed(st.attempts)))
  {
  }

  /* With and Condition (v2/template.go:31-53, 60-92). */

  /** How a block with phases `pre`, `mid` and `post` reports the result `r`
      of writing from `st`, given the outcome `body` of its content: a failure
      is attributed to the phase that failed (the opening write, the content,
      or the closing `{{end}}`), and a panic in the content passes through. */
  ghost predicate PhasesAttributed(failAt: set<nat>, st: Emit, body: Outcome, r: Outcome, pre: Phase, mid: Phase, post: Phase)
  {
    && (r.status.Failed? ==> r.status.error.Wrapped? && r.status.error.phase in {pre, mid, post})
    && (r.status.Failed? && r.status.error.phase == pre <==> st.attempts in failAt)
    && (r.status.Failed? && r.status.error.phase == mid <==> st.attempts !in failAt && body.status.Failed?)
    && (r.status.Panicked? <==> st.attempts !in failAt && body.status.Panicked?)
    && (r.status.Failed? && r.status.error.phase == post <==>
          st.attempts !in failAt && body.status.Ok? && body.st.attempts in failAt)
  }

  /** A block attributes each failure to the phase that failed. */
  lemma BlockPhases(env: Env, st: Emit, open: Token, content: Node, pre: Phase, mid: Phase, post: Phase)
    requires TokenIds(open) <= st.registry.Keys
    requires pre != mid && pre != post && mid != post
    ensures PhasesAttributed(env.failAt, st, Init(env, Emit(st.out + [open], st.registry, st.attempts + 1), content),
                             Block(env, st, open, content, pre, mid, post), pre, mid, post)
  {
    var body := Init(env, Emit(st.out + [open], st.registry, st.attempts + 1), content);
    InitKeeps(env, Emit(st.out + [open], st.registry, st.attempts + 1), content);
    BlockPrefixFails(env, st, open, content, pre, mid, post);
    BlockContentStops(env, st, open, content, pre, mid, post);
    BlockAfterContent(env, st, open, content, pre, mid, post);
    PhasesOfParts(env.failAt, st, body, Block(env, st, open, content, pre, mid, post), pre, mid, post);
  }

  lemma PhasesOfParts(failAt: set<nat>, st: Emit, body: Outcome, r: Outcome, pre: Phase, mid: Phase, post: Phase)
    requires pre != mid && pre != post && mid != post
    requires st.attempts in failAt ==>
      r == Outcome(st.(attempts := st.attempts + 1), Failed(Wrapped(pre, WriteFailed(st.attempts))))
    requires st.attempts !in failAt && !body.status.Ok? ==> r == Outcome(body.st, Wrap(mid, body.status))
    requires st.attempts !in failAt && body.status.Ok? ==>
      && (body.st.attempts in failAt ==> r.status == Failed(Wrapped(post, WriteFailed(body.st.attempts))))
      && (body.st.attempts !in failAt ==> r.status.Ok?)
    ensures PhasesAttributed(failAt, st, body, r, pre, mid, post)
  {
  }

  /** A block writes its opening directive first, or nothing at all. */
  lemma BlockOutput(env: Env, st: Emit, open: Token, content: Node, pre: Phase, mid: Phase, post: Phase)
    requires TokenIds(open) <= st.registry.Keys
    ensures var r := Block(env, st, open, content, pre, mid, post);
      && (st.attempts in env.failAt ==> r.st.out == st.out)
      && (st.attempts !in env.failAt ==> st.out + [open] <= r.st.out)
  {
    var body := Init(env, Emit(st.out + [open], st.registry, st.attempts + 1), content);
    InitKeeps(env, Emit(st.out + [open], st.registry, st.attempts + 1), content);
    BlockPrefixFails(env, st, open, content, pre, mid, post);
    BlockContentStops(env, st, open, content, pre, mid, post);
    BlockAfterContent(env, st, open, content, pre, mid, post);
  }

  /** A failed opening write is reported as `pre` and nothing is written. */
  lemma BlockPrefixFails(env: Env, st: Emit, open: Token, content: Node, pre: Phase, mid: Phase, post: Phase)
    requires TokenIds(open) <= st.registry.Keys
    ensures st.attempts in env.failAt ==>
      Block(env, st, open, content, pre, mid, post)
        == Outcome(st.(attempts := st.attempts + 1), Failed(Wrapped(pre, WriteFailed(st.attempts))))
  {
  }

  /** A content that does not succeed ends the block with its status, tagged
      `mid` when it is an error. */
  lemma BlockContentStops(env: Env, st: Emit, open: Token, content: Node, pre: Phase, mid: Phase, post: Phase)
    requires TokenIds(open) <= st.registry.Keys
    ensures var body := Init(env, Emit(st.out + [open], st.registry, st.attempts + 1), content);
      st.attempts !in env.failAt && !body.status.Ok? ==> Block(env, st, open, content, pre, mid, post) == Outcome(body.st, Wrap(mid, body.status))
  {
    if st.attempts !in env.failAt {
      assert Write(env, st, open).st == Emit(st.out + [open], st.registry, st.attempts + 1);
    }
  }

  /** After a successful content only the closing `{{end}}` can fail. */
  lemma BlockAfterContent(env: Env, st: Emit, open: Token, content: Node, pre: Phase, mid: Phase, post: Phase)
    requires TokenIds(open) <= st.registry.Keys
    ensures var body := Init(env, Emit(st.out + [open], st.registry, st.attempts + 1), content);
      var r := Block(env, st, open, content, pre, mid, post);
      st.attempts !in env.failAt && body.status.Ok? ==>
        && r.st.attempts == body.st.attempts + 1
        && (body.st.attempts in env.failAt ==>
              r.st.out == body.st.out && r.status == Failed(Wrapped(post, WriteFailed(body.st.attempts))))
        && (body.st.attempts !in env.failAt ==> r.st.out == body.st.out + [End] && r.status.Ok?)
  {
    if st.attempts !in env.failAt {
      assert Write(env, st, open).st == Emit(st.out + [open], st.registry, st.attempts + 1);
    }
  }

  /** `With`: nothing at all without content; otherwise the callback is
      registered and the rest is the block `{{with id $r}}` content `{{end}}`
      with phases `WithPrefix`, `WithContent` and `WithSuffix`. */
  lemma WithShape(env: Env, st: Emit, f: Callback, content: Option<Node>)
    requires env.canTemplate
    ensures content.None? ==> Init(env, st, With(f, content)) == Outcome(st, Ok)
    ensures content.Some? ==>
      Init(env, st, With(f, content))
        == Block(env, st.(registry := st.registry[env.newId(f) := f]), WithOpen(env.newId(f)), content.value,
                 WithPrefix, WithContent, WithSuffix)
  {
    if content.Some? {
      WithBlock(env, st, f, content);
    }
  }

  lemma WithBlock(env: Env, st: Emit, f: Callback, content: Option<Node>)
    requires env.canTemplate && content.Some?
    ensures Init(env, st, With(f, content))
         == Block(env, st.(registry := st.registry[env.newId(f) := f]), WithOpen(env.newId(f)), content.value,
                  WithPrefix, WithContent, WithSuffix)
  {
    var st1 := Register(env, st, f);
    RegisterUpdates(env, st, f);
    assert InitWith(env, st, f, content)
        == Block(env, st1, WithOpen(env.newId(f)), content.value, WithPrefix, WithContent, WithSuffix);
    assert Init(env, st, With(f, content)) == InitWith(env, st, f, content);
  }

  /** Registration is a map insert of the generated identifier. */
  lemma RegisterUpdates(env: Env, st: Emit, cb: Callback)
    ensures Register(env, st, cb) == st.(registry := st.registry[env.newId(cb) := cb])
  {
  }

  /** `Condition`: the nil-content test comes first, so a predicate without
      content writes and registers nothing; without a predicate it is its
      content alone; otherwise the predicate is registered and the rest is the
      block `{{if id $r}}` content `{{end}}` with phases `ConditionPrefix`,
      `ConditionContent` and `ConditionSuffix`. */
  lemma ConditionShapes(env: Env, st: Emit, c: Condition)
    requires env.canTemplate
    ensures c.content.None? ==> InitCondition(env, st, c) == Outcome(st, Ok)
    ensures c.content.Some? && c.pred.None? ==> InitCondition(env, st, c) == Init(env, st, c.content.value)
    ensures c.content.Some? && c.pred.Some? ==>
      var id := env.newId(c.pred.value);
      InitCondition(env, st, c)
        == Block(env, st.(registry := st.registry[id := c.pred.value]), If(id), c.content.value,
                 ConditionPrefix, ConditionContent, ConditionSuffix)
  {
    if c.content.Some? && c.pred.Some? {
      ConditionBlock(env, st, c);
    }
  }

  lemma ConditionBlock(env: Env, st: Emit, c: Condition)
    requires env.canTemplate && c.content.Some? && c.pred.Some?
    ensures var id := env.newId(c.pred.value);
      InitCondition(env, st, c)
        == Block(env, st.(registry := st.registry[id := c.pred.value]), If(id), c.content.value,
                 ConditionPrefix, ConditionContent, ConditionSuffix)
  {
    RegisterUpdates(env, st, c.pred.value);
  }

  /** The rendered guard directives. */
  lemma GuardText(id: string)
    ensures Render(If(id)) == "{{if " + id + " $r}}"
    ensures Render(ElseIf(id)) == "{{else if " + id + " $r}}"
    ensures Render(WithOpen(id)) == "{{with " + id + " $r}}"
  {
  }

  /* Conditions (v2/template.go:96-148). */

  /** Chains of length 0 and 1 (v2/template.go:100-105). */
  lemma ShortChains(env: Env, st: Emit, cs: seq<Condition>)
    requires env.canTemplate && |cs| <= 1
    ensures |cs| == 0 ==> Init(env, st, Conditions(cs)) == Outcome(st, Ok)
    ensures |cs| == 1 ==> Init(env, st, Conditions(cs)) == Init(env, st, Cond(cs[0]))
  {
  }

  /** The phases a chain entry can fail in. */
  ghost predicate EntryPhase(cs: seq<Condition>, lo: nat, e: Error)
  {
    && e.Wrapped?
    && (e.phase.EntryGuard? || e.phase.EntryContent?)
    && lo <= e.phase.index < |cs|
    && cs[e.phase.index].pred.Some?
  }

  /** One guarded entry: a failed guard write is `EntryGuard(i)`, anything
      failing in the content is `EntryContent(i)`, and a missing content is a
      panic right after the guard. */
  lemma BranchPhases(env: Env, st: Emit, c: Condition, i: nat, branches: nat)
    requires c.pred.Some?
    ensures var r := Branch(env, st, c, i, branches);
      var id := env.newId(c.pred.value);
      var guard := if branches > 0 then ElseIf(id) else If(id);
      && id in r.st.registry
      && (r.status.Failed? ==> r.status.error.Wrapped? && r.status.error.phase in {EntryGuard(i), EntryContent(i)})
      && (r.status.Failed? && r.status.error.phase == EntryGuard(i) <==> st.attempts in env.failAt)
      && (st.attempts !in env.failAt ==> |st.out| < |r.st.out| && r.st.out[|st.out|] == guard)
      && (st.attempts !in env.failAt && c.content.None? ==>
            r.status == Panicked(i) && r.st.out == st.out + [guard])
  {
    var id := env.newId(c.pred.value);
    var guard := Write(env, Register(env, st, c.pred.value), if branches > 0 then ElseIf(id) else If(id));
    if guard.status.Ok? && c.content.Some? {
      InitKeeps(env, guard.st, c.content.value);
    }
  }

  /** What the loop from entry `i` has done when it stops with `r`: it fails
      only in the phases of its own guarded entries, and when it finishes it
      has counted every predicate entry and collected every fallback content
      in order, whatever the stream did. */
  ghost predicate LoopPhases(cs: seq<Condition>, i: nat, elses: seq<Node>, branches: nat, r: Loop)
    requires i <= |cs|
  {
    && (r.out.status.Failed? ==> EntryPhase(cs, i, r.out.status.error))
    && (r.out.status.Ok? ==>
          r.branches == branches + |Guarded(cs[i..])| && r.elses == elses + Fallback(cs[i..]))
  }

  lemma {:induction false} GuardsPhases(env: Env, st: Emit, cs: seq<Condition>, i: nat, elses: seq<Node>, branches: nat)
    requires i <= |cs|
    ensures LoopPhases(cs, i, elses, branches, Guards(env, st, cs, i, elses, branches))
    decreases |cs| - i
  {
    if i < |cs| {
      var c := cs[i];
      if c.pred.None? {
        var elses' := if c.content.Some? then elses + [c.content.value] else elses;
        GuardsSkip(env, st, cs, i, elses, branches);
        GuardsPhases(env, st, cs, i + 1, elses', branches);
        SkipPhases(cs, i, elses, branches, Guards(env, st, cs, i + 1, elses', branches));
      } else {
        var branch := Branch(env, st, c, i, branches);
        GuardsStep(env, st, cs, i, elses, branches);
        BranchPhases(env, st, c, i, branches);
        if branch.status.Ok? {
          GuardsPhases(env, branch.st, cs, i + 1, elses, branches + 1);
          TakePhases(cs, i, elses, branches, Guards(env, branch.st, cs, i + 1, elses, branches + 1));
        }
      }
    } else {
      assert cs[i..] == [];
    }
  }

  /** One predicate entry of the loop: its branch, then the rest of the loop
      unless the branch did not succeed. */
  lemma GuardsStep(env: Env, st: Emit, cs: seq<Condition>, i: nat, elses: seq<Node>, branches: nat)
    requires i < |cs| && cs[i].pred.Some?
    ensures var branch := Branch(env, st, cs[i], i, branches);
      Guards(env, st, cs, i, elses, branches)
        == if branch.status.Ok? then Guards(env, branch.st, cs, i + 1, elses, branches + 1) else Loop(branch, elses, branches)
  {
  }

  lemma SkipPhases(cs: seq<Condition>, i: nat, elses: seq<Node>, branches: nat, r: Loop)
    requires i < |cs| && cs[i].pred.None?
    requires LoopPhases(cs, i + 1, if cs[i].content.Some? then elses + [cs[i].content.value] else elses, branches, r)
    ensures LoopPhases(cs, i, elses, branches, r)
  {
    SplitsStep(cs, i);
    var elses' := if cs[i].content.Some? then elses + [cs[i].content.value] else elses;
    assert elses' + Fallback(cs[i + 1..]) == elses + Fallback(cs[i..]);
  }

  lemma TakePhases(cs: seq<Condition>, i: nat, elses: seq<Node>, branches: nat, r: Loop)
    requires i < |cs| && cs[i].pred.Some?
    requires LoopPhases(cs, i + 1, elses, branches + 1, r)
    ensures LoopPhases(cs, i, elses, branches, r)
  {
    SplitsStep(cs, i);
  }

  /** The end of a chain fails only writing `{{else}}` (when there are branches
      and fallback content) or the closing `{{end}}` (when there are
      branches). */
  lemma ClosePhases(env: Env, st: Emit, elses: seq<Node>, branches: nat)
    ensures var r := CloseChain(env, st, elses, branches);
      r.status.Failed? ==>
        || (r.status == Failed(Wrapped(ChainElse, WriteFailed(st.attempts))) && branches > 0 && |elses| > 0)
        || (r.status.error.Wrapped? && r.status.error.phase == ChainEnd && branches > 0)
  {
  }

  /** Every error a chain of two or more entries reports carries the
      `EntryGuard` or `EntryContent` tag of one of its predicate entries,
      `ChainElse` when there are both branches and fallback content, or
      `ChainEnd` when there are branches. The tag is all it pins down: a chain
      nested in the fallback block fails with the same tags, and that its
      errors are discarded is `FallbackErrorIgnored`. */
  lemma ChainPhases(env: Env, st: Emit, cs: seq<Condition>)
    requires env.canTemplate && |cs| >= 2
    ensures var r := InitConditions(env, st, cs);
      r.status.Failed? ==>
        || EntryPhase(cs, 0, r.status.error)
        || (r.status.error.Wrapped? && r.status.error.phase == ChainElse
            && |Guarded(cs)| > 0 && |Fallback(cs)| > 0)
        || (r.status.error.Wrapped? && r.status.error.phase == ChainEnd && |Guarded(cs)| > 0)
  {
    var loop := Guards(env, st, cs, 0, [], 0);
    var close := CloseChain(env, loop.out.st, loop.elses, loop.branches);
    ChainUnfold(env, st, cs);
    GuardsPhases(env, st, cs, 0, [], 0);
    ClosePhases(env, loop.out.st, loop.elses, loop.branches);
    assert cs[0..] == cs;
    ChainPhasesOfParts(cs, loop, close, InitConditions(env, st, cs));
  }

  /** `Conditions.Init` on two or more entries: the loop, then, if it
      succeeded, the end of the chain. */
  lemma ChainUnfold(env: Env, st: Emit, cs: seq<Condition>)
    requires env.canTemplate && |cs| >= 2
    ensures var loop := Guards(env, st, cs, 0, [], 0);
      InitConditions(env, st, cs)
        == if loop.out.status.Ok? then CloseChain(env, loop.out.st, loop.elses, loop.branches) else loop.out
  {
    assert cs[0..] == cs;
  }

  lemma ChainPhasesOfParts(cs: seq<Condition>, loop: Loop, close: Outcome, r: Outcome)
    requires LoopPhases(cs, 0, [], 0, loop)
    requires r == if loop.out.status.Ok? then close else loop.out
    requires close.status.Failed? ==>
        || (close.status.error.Wrapped? && close.status.error.phase == ChainElse && loop.branches > 0 && |loop.elses| > 0)
        || (close.status.error.Wrapped? && close.status.error.phase == ChainEnd && loop.branches > 0)
    ensures r.status.Failed? ==>
        || EntryPhase(cs, 0, r.status.error)
        || (r.status.error.Wrapped? && r.status.error.phase == ChainElse
            && |Guarded(cs)| > 0 && |Fallback(cs)| > 0)
        || (r.status.error.Wrapped? && r.status.error.phase == ChainEnd && |Guarded(cs)| > 0)
  {
    assert cs[0..] == cs;
  }

  /** The fallback block's own error is discarded (v2/template.go:139): once
      `{{else}}` is written, the chain's status depends only on a panic in the
      fallback and on the closing `{{end}}` write. */
  lemma FallbackErrorIgnored(env: Env, st: Emit, elses: seq<Node>, branches: nat)
    requires |elses| > 0
    requires branches == 0 || st.attempts !in env.failAt
    ensures var r := CloseChain(env, st, elses, branches);
      var started := if branches > 0 then Emit(st.out + [Else], st.registry, st.attempts + 1) else st;
      var fallback := InitFragment(env, started, elses);
      && (fallback.status.Panicked? ==> r == fallback)
      && (!fallback.status.Panicked? && branches == 0 ==> r == Outcome(fallback.st, Ok))
      && (!fallback.status.Panicked? && branches > 0 ==>
            && (r.status.Ok? <==> fallback.st.attempts !in env.failAt)
            && (r.status.Ok? ==> r.st.out == fallback.st.out + [End])
            && (!r.status.Ok? ==> r.status == Failed(Wrapped(ChainEnd, WriteFailed(fallback.st.attempts)))))
  {
    CloseUnfold(env, st, elses, branches);
  }

  /** The end of a chain with fallback content, once `{{else}}` is written:
      the fallback block, then `Terminate` unless the block panicked. */
  lemma CloseUnfold(env: Env, st: Emit, elses: seq<Node>, branches: nat)
    requires |elses| > 0
    requires branches == 0 || st.attempts !in env.failAt
    ensures var started := if branches > 0 then Emit(st.out + [Else], st.registry, st.attempts + 1) else st;
      var fallback := InitFragment(env, started, elses);
      CloseChain(env, st, elses, branches)
        == if fallback.status.Panicked? then fallback else Terminate(env, fallback.st, branches)
  {
    var started := if branches > 0 then Emit(st.out + [Else], st.registry, st.attempts + 1) else st;
    assert (if branches > 0 then Write(env, st, Else) else Outcome(st, Ok)) == Outcome(started, Ok);
  }

  /** With templating available on a stream that never fails, a predicate
      entry without content in a chain of two or more is not skipped: its
      identifier is registered, its guard is written, and the compilation
      panics there (v2/template.go:119-126). */
  lemma NilContentEntryPanics(env: Env, st: Emit, cs: seq<Condition>, j: nat)
    requires env.canTemplate && |cs| >= 2 && NoFailuresFrom(env, st.attempts)
    requires j < |cs| && cs[j].pred.Some? && cs[j].content.None?
    requires forall k :: 0 <= k < j && cs[k].pred.Some? ==> cs[k].content.Some? && WellFormed(cs[k].content.value)
    ensures var r := InitConditions(env, st, cs);
      var id := env.newId(cs[j].pred.value);
      && r.status == Panicked(j)
      && id in r.st.registry
      && |r.st.out| > 0
      && r.st.out[|r.st.out| - 1] == (if exists k :: 0 <= k < j && cs[k].pred.Some? then ElseIf(id) else If(id))
  {
    assert cs[0..] == cs;
    GuardsPanic(env, st, cs, 0, [], 0, j);
  }

  /** On any stream, a chain of two or more entries with a predicate entry `j`
      without content never succeeds: the loop stops at entry `j` at the
      latest, and an error it reports is the guard or content error of a
      predicate entry no later than `j` (v2/template.go:115-126). */
  lemma ContentlessEntryNeverOk(env: Env, st: Emit, cs: seq<Condition>, j: nat)
    requires env.canTemplate && |cs| >= 2
    requires j < |cs| && cs[j].pred.Some? && cs[j].content.None?
    ensures var r := InitConditions(env, st, cs);
      && !r.status.Ok?
      && (r.status.Failed? ==> EntryPhase(cs, 0, r.status.error) && r.status.error.phase.index <= j)
  {
    assert cs[0..] == cs;
    GuardsStopBy(env, st, cs, 0, [], 0, j);
  }

  /** The loop from entry `i` stopped without success, and a failure it
      reports belongs to a predicate entry between `i` and `j`. */
  ghost predicate StopsBy(cs: seq<Condition>, i: nat, j: nat, r: Loop)
  {
    && !r.out.status.Ok?
    && (r.out.status.Failed? ==> EntryPhase(cs, i, r.out.status.error) && r.out.status.error.phase.index <= j)
  }

  lemma {:induction false} GuardsStopBy(env: Env, st: Emit, cs: seq<Condition>, i: nat, elses: seq<Node>, branches: nat, j: nat)
    requires i <= j < |cs| && cs[j].pred.Some? && cs[j].content.None?
    ensures StopsBy(cs, i, j, Guards(env, st, cs, i, elses, branches))
    decreases j - i
  {
    if cs[i].pred.None? {
      GuardsSkip(env, st, cs, i, elses, branches);
      GuardsStopBy(env, st, cs, i + 1, if cs[i].content.Some? then elses + [cs[i].content.value] else elses, branches, j);
    } else {
      var branch := Branch(env, st, cs[i], i, branches);
      GuardsStep(env, st, cs, i, elses, branches);
      BranchPhases(env, st, cs[i], i, branches);
      if branch.status.Ok? {
        GuardsStopBy(env, branch.st, cs, i + 1, elses, branches + 1, j);
      }
    }
  }

  /** The loop from entry `i` stopped with the panic of entry `j`, right after
      writing `j`'s guard. */
  ghost predicate PanicAt(gen: Callback -> string, cs: seq<Condition>, i: nat, branches: nat, j: nat, r: Loop)
    requires j < |cs| && cs[j].pred.Some?
  {
    var id := gen(cs[j].pred.value);
    && r.out.status == Panicked(j)
    && id in r.out.st.registry
    && |r.out.st.out| > 0
    && r.out.st.out[|r.out.st.out| - 1] ==
         (if branches > 0 || exists k :: i <= k < j && cs[k].pred.Some? then ElseIf(id) else If(id))
  }

  lemma {:induction false} GuardsPanic(env: Env, st: Emit, cs: seq<Condition>, i: nat, elses: seq<Node>, branches: nat, j: nat)
    requires env.canTemplate && NoFailuresFrom(env, st.attempts)
    requires i <= j < |cs| && cs[j].pred.Some? && cs[j].content.None?
    requires forall k :: i <= k < j && cs[k].pred.Some? ==> cs[k].content.Some? && WellFormed(cs[k].content.value)
    ensures PanicAt(env.newId, cs, i, branches, j, Guards(env, st, cs, i, elses, branches))
    decreases j - i, 1
  {
    if i == j {
      GuardsStep(env, st, cs, i, elses, branches);
      BranchPhases(env, st, cs[i], i, branches);
    } else if cs[i].pred.None? {
      PanicSkipStep(env, st, cs, i, elses, branches, j);
    } else {
      PanicTakeStep(env, st, cs, i, elses, branches, j);
    }
  }

  lemma {:induction false} PanicSkipStep(env: Env, st: Emit, cs: seq<Condition>, i: nat, elses: seq<Node>, branches: nat, j: nat)
    requires env.canTemplate && NoFailuresFrom(env, st.attempts)
    requires i < j < |cs| && cs[i].pred.None? && cs[j].pred.Some? && cs[j].content.None?
    requires forall k :: i <= k < j && cs[k].pred.Some? ==> cs[k].content.Some? && WellFormed(cs[k].content.value)
    ensures PanicAt(env.newId, cs, i, branches, j, Guards(env, st, cs, i, elses, branches))
    decreases j - i, 0
  {
    var elses' := if cs[i].content.Some? then elses + [cs[i].content.value] else elses;
    GuardsSkip(env, st, cs, i, elses, branches);
    GuardsPanic(env, st, cs, i + 1, elses', branches, j);
    PanicShift(env.newId, cs, i, branches, branches, j, Guards(env, st, cs, i + 1, elses', branches));
  }

  lemma {:induction false} PanicTakeStep(env: Env, st: Emit, cs: seq<Condition>, i: nat, elses: seq<Node>, branches: nat, j: nat)
    requires env.canTemplate && NoFailuresFrom(env, st.attempts)
    requires i < j < |cs| && cs[i].pred.Some? && cs[j].pred.Some? && cs[j].content.None?
    requires forall k :: i <= k < j && cs[k].pred.Some? ==> cs[k].content.Some? && WellFormed(cs[k].content.value)
    ensures PanicAt(env.newId, cs, i, branches, j, Guards(env, st, cs, i, elses, branches))
    decreases j - i, 0
  {
    var branch := Branch(env, st, cs[i], i, branches);
    BranchSucceeds(env, st, cs[i], i, branches);
    GuardsStep(env, st, cs, i, elses, branches);
    GuardsPanic(env, branch.st, cs, i + 1, elses, branches + 1, j);
    PanicShift(env.newId, cs, i, branches, branches + 1, j, Guards(env, branch.st, cs, i + 1, elses, branches + 1));
  }

  /** A guarded entry with well-formed content on a stream that does not fail
      succeeds and leaves a stream that still does not fail. */
  lemma BranchSucceeds(env: Env, st: Emit, c: Condition, i: nat, branches: nat)
    requires c.pred.Some? && c.content.Some? && WellFormed(c.content.value)
    requires env.canTemplate && NoFailuresFrom(env, st.attempts)
    ensures var b := Branch(env, st, c, i, branches); b.status.Ok? && NoFailuresFrom(env, b.st.attempts)
  {
    BranchMatches(env, st, c, i, branches);
  }

  /** Stepping over entry `i`: a predicate entry counts as an earlier branch. */
  lemma PanicShift(gen: Callback -> string, cs: seq<Condition>, i: nat, branches: nat, branches': nat, j: nat, r: Loop)
    requires i < j < |cs| && cs[j].pred.Some?
    requires branches' == if cs[i].pred.Some? then branches + 1 else branches
    requires PanicAt(gen, cs, i + 1, branches', j, r)
    ensures PanicAt(gen, cs, i, branches, j, r)
  {
    if cs[i].pred.None? {
      assert (exists k :: i <= k < j && cs[k].pred.Some?) <==> (exists k :: i + 1 <= k < j && cs[k].pred.Some?);
    } else {
      assert i <= i < j && cs[i].pred.Some?;
    }
  }

  /* Registry. */

  /** Every identifier a compilation writes is registered, and, with an
      injective generator, it resolves to the one callback it was generated
      from. */
  lemma IdentifiersResolve(env: Env, st: Emit, n: Node)
    requires Closed(st) && Consistent(env.newId, st.registry)
    ensures var r := Init(env, st, n);
      && Closed(r.st) && Consistent(env.newId, r.st.registry)
      && (forall k, id :: 0 <= k < |r.st.out| && id in TokenIds(r.st.out[k]) ==>
           id in r.st.registry && env.newId(r.st.registry[id]) == id)
      && (Injective(env.newId) ==>
           forall k, id, c :: 0 <= k < |r.st.out| && id in TokenIds(r.st.out[k]) && env.newId(c) == id ==>
             r.st.registry[id] == c)
  {
    InitKeeps(env, st, n);
  }
}

=== FILE: reference.dfy ===
/**
  An independent, declarative description of the template a tree compiles to
  when the stream never fails, and a checker for directive nesting.

  Where the compiler walks a chain once with a branch counter and a fallback
  accumulator, `ChainTokens` is stated by filtering: the guarded entries in
  order (`if`, then `else if`), one `else` exactly when there are both guarded
  entries and fallback content, the fallback contents in input order, and one
  `end` exactly when there is a guarded entry.
 */
module Reference {
  import opened Nodes
  import opened Framework

  /** The entries that carry a predicate, in input order. */
  function Guarded(cs: seq<Condition>): (r: seq<Condition>)
    ensures |r| <= |cs|
    ensures CondsSize(r) <= CondsSize(cs)
    ensures forall k :: 0 <= k < |r| ==> r[k].pred.Some?
  {
    if |cs| == 0 then []
    else if cs[0].pred.Some? then [cs[0]] + Guarded(cs[1..])
    else Guarded(cs[1..])
  }

  /** The contents of the entries without a predicate, in input order;
      entries with neither contribute nothing. */
  function Fallback(cs: seq<Condition>): (r: seq<Node>)
    ensures |r| <= |cs|
    ensures SeqSize(r) <= CondsSize(cs)
  {
    if |cs| == 0 then []
    else if cs[0].pred.None? && cs[0].content.Some? then
      var rest := Fallback(cs[1..]);
      assert ([cs[0].content.value] + rest)[1..] == rest;
      assert CondsSize(cs) == CondSize(cs[0]) + CondsSize(cs[1..]);
      assert OptSize(cs[0].content) == 1 + Size(cs[0].content.value);
      assert CondsSize(cs) == 2 + Size(cs[0].content.value) + CondsSize(cs[1..]);
      [cs[0].content.value] + rest
    else Fallback(cs[1..])
  }

  function Expected(gen: Callback -> string, n: Node): seq<Token>
    decreases Size(n), 2
  {
    match n
    case Raw(s) => [Lit(s)]
    case Fragment(ch) => ExpectedSeq(gen, ch)
    case Variable(name, f) => [Bind(name, gen(f))]
    case With(f, c) =>
      if c.None? then []
      else
        assert Size(n) == 2 + Size(c.value);
        [WithOpen(gen(f))] + Expected(gen, c.value) + [End]
    case Cond(c) => ExpectedCondition(gen, c)
    case Conditions(cs) =>
      if |cs| == 0 then []
      else if |cs| == 1 then
        assert CondsSize(cs) == CondSize(cs[0]) + CondsSize(cs[1..]);
        ExpectedCondition(gen, cs[0])
      else ChainTokens(gen, cs)
  }

  function ExpectedSeq(gen: Callback -> string, ns: seq<Node>): seq<Token>
    decreases SeqSize(ns), 2
  {
    if |ns| == 0 then [] else Expected(gen, ns[0]) + ExpectedSeq(gen, ns[1..])
  }

  /** A stand-alone condition: nothing without content, the bare content
      without a predicate, else the guarded block. */
  function ExpectedCondition(gen: Callback -> string, c: Condition): seq<Token>
    decreases CondSize(c), 2
  {
    match c.content
    case None => []
    case Some(n) =>
      assert CondSize(c) == 2 + Size(n);
      if c.pred.None? then Expected(gen, n) else [If(gen(c.pred.value))] + Expected(gen, n) + [End]
  }

  function ChainTokens(gen: Callback -> string, cs: seq<Condition>): seq<Token>
    decreases CondsSize(cs), 3
  {
    var k := |Guarded(cs)|;
    var fallback := Fallback(cs);
    GuardBlocks(gen, Guarded(cs), true)
    + (if k > 0 && |fallback| > 0 then [Else] else [])
    + ExpectedSeq(gen, fallback)
    + (if k > 0 then [End] else [])
  }

  /** The guarded branches: the first opens with `if`, the rest with `else if`. */
  function GuardBlocks(gen: Callback -> string, gs: seq<Condition>, first: bool): seq<Token>
    requires forall k :: 0 <= k < |gs| ==> gs[k].pred.Some?
    decreases CondsSize(gs), 1
  {
    if |gs| == 0 then []
    else
      var id := gen(gs[0].pred.value);
      assert CondsSize(gs) == 1 + OptSize(gs[0].content) + CondsSize(gs[1..]);
      [if first then If(id) else ElseIf(id)]
      + (match gs[0].content case None => [] case Some(n) => Expected(gen, n))
      + GuardBlocks(gen, gs[1..], false)
  }

  /* Nesting. A scope on the stack is an open `with` or an open `if`, the latter
     remembering whether its `else` has been seen. */

  datatype Scope = WithScope | IfScope(seenElse: bool)

  /** The stack after one token, or `None` where the token is out of place:
      `else if` and `else` only directly inside an `if` that has had no
      `else`, `end` only when a scope is open. Literals are opaque. */
  function Step(t: Token, s: seq<Scope>): Option<seq<Scope>>
  {
    match t
    case Lit(_) => Some(s)
    case Bind(_, _) => Some(s)
    case WithOpen(_) => Some(s + [WithScope])
    case If(_) => Some(s + [IfScope(false)])
    case ElseIf(_) =>
      if |s| > 0 && s[|s| - 1] == IfScope(false) then Some(s) else None
    case Else =>
      if |s| > 0 && s[|s| - 1] == IfScope(false) then Some(s[..|s| - 1] + [IfScope(true)]) else None
    case End =>
      if |s| > 0 then Some(s[..|s| - 1]) else None
  }

  function Run(ts: seq<Token>, s: seq<Scope>): Option<seq<Scope>>
  {
    if |ts| == 0 then Some(s)
    else match Step(ts[0], s)
      case None => None
      case Some(s') => Run(ts[1..], s')
  }

  /** A token sequence is well nested when it closes every scope it opens and
      never closes or continues a scope it did not open. */
  ghost predicate WellNested(ts: seq<Token>)
  {
    forall s :: Run(ts, s) == Some(s)
  }
}

=== FILE: scenarios.dfy ===
/**
  Worked chains. Concrete trees that show, under any identifier generator,
  the template a chain compiles to, how a failed write in the fallback block
  disappears, and how the chain treats a predicate entry without content
  differently from a stand-alone `Condition`.
 */
module Scenarios {
  import opened Nodes
  import opened Framework
  import opened Template
  import opened Reference
  import opened Agreement
  import opened Properties

  /** No predicate entry: the chain is its fallback contents, in order, with
      no directive around them. */
  lemma {:induction false} UnguardedChain(gen: Callback -> string, cs: seq<Condition>)
    requires forall k :: 0 <= k < |cs| ==> cs[k].pred.None?
    ensures Guarded(cs) == []
    ensures ChainTokens(gen, cs) == ExpectedSeq(gen, Fallback(cs))
  {
    if |cs| > 0 {
      UnguardedChain(gen, cs[1..]);
    }
    var f := ExpectedSeq(gen, Fallback(cs));
    assert ChainTokens(gen, cs) == [] + [] + f + [];
  }

  /** A chain is written in two parts: the guarded branches and the fallback
      contents. Which entry lands where depends only on whether it has a
      predicate. */
  lemma {:induction false} ChainPartition(cs: seq<Condition>)
    ensures |Guarded(cs)| + |Fallback(cs)| <= |cs|
    ensures |Guarded(cs)| == |cs| ==> Fallback(cs) == []
    ensures Guarded(cs) == [] <==> forall k :: 0 <= k < |cs| ==> cs[k].pred.None?
  {
    if |cs| > 0 {
      ChainPartition(cs[1..]);
      assert forall k :: 1 <= k < |cs| ==> cs[k] == cs[1..][k - 1];
      if Guarded(cs) == [] {
        assert cs[0].pred.None?;
      }
    }
  }

  const A := Raw("A")
  const B := Raw("B")
  const C := Raw("C")
  const D := Raw("D")

  function Mixed(admin: Callback, owner: Callback): seq<Condition>
  {
    [Condition(Some(admin), Some(A)), Condition(None, Some(B)),
     Condition(Some(owner), Some(C)), Condition(None, Some(D))]
  }

  /** `[admin: A, nil: B, owner: C, nil: D]` on a stream that does not fail:
      one `if`, one `else if`, and both fallback contents merged after the
      single `{{else}}`. */
  lemma MixedChain(gen: Callback -> string, admin: Callback, owner: Callback)
    ensures var r := Init(Env(true, gen, {}), Emit([], map[], 0), Conditions(Mixed(admin, owner)));
      && r.status == Ok
      && r.st.registry.Keys == {gen(admin), gen(owner)}
      && r.st.out == [If(gen(admin)), Lit("A"), ElseIf(gen(owner)), Lit("C"), Else, Lit("B"), Lit("D"), End]
  {
    var cs := Mixed(admin, owner);
    assert ChainWellFormed(cs) by {
      forall i | 0 <= i < |cs|
        ensures EntryWellFormed(cs[i]) && cs[i].content.Some?
      {
      }
    }
    InitMatches(Env(true, gen, {}), Emit([], map[], 0), Conditions(cs));
    var ts := MixedTokens(gen, admin, owner);
    MixedIds(ts, gen(admin), gen(owner));
  }

  lemma MixedIds(ts: seq<Token>, a: string, o: string)
    requires ts == [If(a), Lit("A"), ElseIf(o), Lit("C"), Else, Lit("B"), Lit("D"), End]
    ensures IdsOf(ts) == {a, o}
  {
    var t2 := ts[2..];
    var t3 := t2[1..];
    assert t3 == [Lit("C"), Else, Lit("B"), Lit("D"), End];
    NoIds(t3);
    assert IdsOf(t2) == {o} + IdsOf(t3);
    assert IdsOf(ts) == {a} + IdsOf(ts[1..]);
    assert ts[1..][1..] == t2;
  }

  /** Literals, `{{else}}` and `{{end}}` name no identifier. */
  lemma {:induction false} NoIds(ts: seq<Token>)
    requires forall k :: 0 <= k < |ts| ==> ts[k].Lit? || ts[k] == Else || ts[k] == End
    ensures IdsOf(ts) == {}
  {
    if |ts| > 0 {
      NoIds(ts[1..]);
    }
  }

  /** What the reference writes for the mixed chain. */
  lemma MixedTokens(gen: Callback -> string, admin: Callback, owner: Callback) returns (ts: seq<Token>)
    ensures ts == [If(gen(admin)), Lit("A"), ElseIf(gen(owner)), Lit("C"), Else, Lit("B"), Lit("D"), End]
    ensures Expected(gen, Conditions(Mixed(admin, owner))) == ts
  {
    var cs := Mixed(admin, owner);
    MixedPartition(admin, owner);
    var g := GuardBlocks(gen, [cs[0], cs[2]], true);
    MixedGuards(gen, cs[0], cs[2]);
    var f := ExpectedSeq(gen, [B, D]);
    MixedFallback(gen);
    ts := [If(gen(admin)), Lit("A"), ElseIf(gen(owner)), Lit("C"), Else, Lit("B"), Lit("D"), End];
    assert ChainTokens(gen, cs) == g + [Else] + f + [End];
  }

  lemma MixedGuards(gen: Callback -> string, c0: Condition, c2: Condition)
    requires c0.pred.Some? && c0.content == Some(A)
    requires c2.pred.Some? && c2.content == Some(C)
    ensures GuardBlocks(gen, [c0, c2], true) ==
      [If(gen(c0.pred.value)), Lit("A"), ElseIf(gen(c2.pred.value)), Lit("C")]
  {
    var gs := [c0, c2];
    assert gs[1..] == [c2] && [c2][1..] == [];
    assert Expected(gen, A) == [Lit("A")] && Expected(gen, C) == [Lit("C")];
    assert GuardBlocks(gen, [c2], false) == [ElseIf(gen(c2.pred.value))] + [Lit("C")] + GuardBlocks(gen, [], false);
  }

  lemma MixedFallback(gen: Callback -> string)
    ensures ExpectedSeq(gen, [B, D]) == [Lit("B"), Lit("D")]
  {
    assert [B, D][1..] == [D] && [D][1..] == [];
    assert ExpectedSeq(gen, [D]) == [Lit("D")] + ExpectedSeq(gen, []);
  }

  /** The mixed chain's guarded entries and fallback contents. */
  lemma MixedPartition(admin: Callback, owner: Callback)
    ensures var cs := Mixed(admin, owner);
      Guarded(cs) == [cs[0], cs[2]] && Fallback(cs) == [B, D]
  {
    var cs := Mixed(admin, owner);
    var s1 := cs[1..];
    var s2 := s1[1..];
    var s3 := s2[1..];
    assert s3 == [cs[3]] && s3[1..] == [];
    assert Guarded(s3) == [] && Fallback(s3) == [D];
    assert Guarded(s2) == [cs[2]] + Guarded(s3) && Fallback(s2) == Fallback(s3);
    assert Guarded(s1) == Guarded(s2) && Fallback(s1) == [B] + Fallback(s2);
    assert Guarded(cs) == [cs[0]] + Guarded(s1) && Fallback(cs) == Fallback(s1);
  }

  /** `[p: A, nil: B]` where the write of the fallback `B` (attempt 3) fails:
      the chain still reports success, and the template it leaves behind has
      an `{{else}}` branch with nothing in it. */
  lemma FallbackWriteLost(gen: Callback -> string, p: Callback)
    ensures var env := Env(true, gen, {3});
      var cs := [Condition(Some(p), Some(A)), Condition(None, Some(B))];
      var r := InitConditions(env, Emit([], map[], 0), cs);
      && r.status == Ok
      && r.st.attempts == 5
      && r.st.out == [If(gen(p)), Lit("A"), Else, End]
  {
    var env := Env(true, gen, {3});
    var cs := [Condition(Some(p), Some(A)), Condition(None, Some(B))];
    var st := Emit([], map[], 0);
    assert cs[0..] == cs;
    var id := gen(p);
    var branch := Branch(env, st, cs[0], 0, 0);
    var st1 := Register(env, st, p);
    assert st1 == Emit([], map[id := p], 0);
    var guard := Write(env, st1, If(id));
    assert guard == Outcome(Emit([If(id)], map[id := p], 1), Ok);
    assert Init(env, guard.st, A) == Outcome(Emit([If(id), Lit("A")], map[id := p], 2), Ok);
    assert branch == Outcome(Emit([If(id), Lit("A")], map[id := p], 2), Ok);
    var loop := Guards(env, st, cs, 0, [], 0);
    assert loop == Guards(env, branch.st, cs, 1, [], 1);
    assert loop == Guards(env, branch.st, cs, 2, [B], 1);
    assert loop == Loop(Outcome(branch.st, Ok), [B], 1);
    var started := Emit([If(id), Lit("A"), Else], map[id := p], 3);
    var fallback := InitFragment(env, started, [B]);
    assert Init(env, started, B) == Outcome(started.(attempts := 4), Failed(WriteFailed(3)));
    assert fallback == Outcome(started.(attempts := 4), Failed(WriteFailed(3)));
    CloseUnfold(env, branch.st, [B], 1);
    var ts := [If(id), Lit("A"), Else, End];
    assert InitConditions(env, st, cs) == Outcome(Emit(ts, map[id := p], 5), Ok);
  }

  /** `[p: A, nil: With(f, B)]` where the fallback `With`'s own `{{end}}`
      (attempt 5) fails: the failure is discarded, the chain's `{{end}}` then
      closes the `with`, and the chain reports success although its `if` is
      never closed. A successful compilation is well nested only on a stream
      that never fails. */
  lemma LostEndUnbalances(gen: Callback -> string, p: Callback, f: Callback)
    ensures var env := Env(true, gen, {5});
      var cs := [Condition(Some(p), Some(A)), Condition(None, Some(With(f, Some(B))))];
      var r := InitConditions(env, Emit([], map[], 0), cs);
      && r.status == Ok
      && r.st.out == [If(gen(p)), Lit("A"), Else, WithOpen(gen(f)), Lit("B"), End]
      && Run(r.st.out, []) == Some([IfScope(true)])
      && !WellNested(r.st.out)
  {
    var env := Env(true, gen, {5});
    var w := With(f, Some(B));
    var cs := [Condition(Some(p), Some(A)), Condition(None, Some(w))];
    var st := Emit([], map[], 0);
    var id, fid := gen(p), gen(f);
    var loop := LostEndLoop(env, p, w);
    ChainUnfold(env, st, cs);
    var r := CloseChain(env, loop.out.st, [w], 1);
    assert InitConditions(env, st, cs) == r;
    var started := Emit(loop.out.st.out + [Else], loop.out.st.registry, loop.out.st.attempts + 1);
    var fallback := LostWithEnd(env, started, f);
    CloseUnfold(env, loop.out.st, [w], 1);
    assert r == Terminate(env, fallback.st, 1);
    var ts := [If(id), Lit("A"), Else, WithOpen(fid), Lit("B"), End];
    assert fallback.st.out + [End] == ts;
    LostEndRun(id, fid);
  }

  /** The loop of `LostEndUnbalances`: one branch written, the `With` set
      aside as fallback. */
  lemma LostEndLoop(env: Env, p: Callback, w: Node) returns (loop: Loop)
    requires env.canTemplate && env.failAt == {5}
    ensures var cs := [Condition(Some(p), Some(A)), Condition(None, Some(w))];
      loop == Guards(env, Emit([], map[], 0), cs, 0, [], 0)
    ensures loop.out.status == Ok && loop.elses == [w] && loop.branches == 1
    ensures loop.out.st.out == [If(env.newId(p)), Lit("A")] && loop.out.st.attempts == 2
  {
    var cs := [Condition(Some(p), Some(A)), Condition(None, Some(w))];
    var st := Emit([], map[], 0);
    var id := env.newId(p);
    var reg := map[id := p];
    var branch := Branch(env, st, cs[0], 0, 0);
    assert Register(env, st, p) == Emit([], reg, 0);
    assert Write(env, Emit([], reg, 0), If(id)) == Outcome(Emit([If(id)], reg, 1), Ok);
    assert Init(env, Emit([If(id)], reg, 1), A) == Outcome(Emit([If(id), Lit("A")], reg, 2), Ok);
    assert branch == Outcome(Emit([If(id), Lit("A")], reg, 2), Ok);
    loop := Guards(env, st, cs, 0, [], 0);
    assert loop == Guards(env, branch.st, cs, 1, [], 1);
    assert [] + [w] == [w];
    assert loop == Guards(env, branch.st, cs, 2, [w], 1);
  }

  /** The fallback block of `LostEndUnbalances`: the `With`'s opening and
      content are written, and its own `{{end}}` is the failing attempt 5. */
  lemma LostWithEnd(env: Env, st: Emit, f: Callback) returns (r: Outcome)
    requires env.canTemplate && st.attempts == 3 && env.failAt == {5}
    ensures r == InitFragment(env, st, [With(f, Some(B))])
    ensures r.st.out == st.out + [WithOpen(env.newId(f)), Lit("B")] && r.st.attempts == 6
    ensures r.status == Failed(Wrapped(WithSuffix, WriteFailed(5)))
  {
    var fid := env.newId(f);
    var st1 := Register(env, st, f);
    var prefix := Write(env, st1, WithOpen(fid));
    assert prefix.status.Ok? && prefix.st.attempts == 4;
    var body := Init(env, prefix.st, B);
    assert body.status.Ok? && body.st.out == st.out + [WithOpen(fid)] + [Lit("B")] && body.st.attempts == 5;
    var w := InitWith(env, st, f, Some(B));
    assert w == Block(env, st1, WithOpen(fid), B, WithPrefix, WithContent, WithSuffix);
    assert Init(env, st, With(f, Some(B))) == w;
    r := InitFragment(env, st, [With(f, Some(B))]);
    assert r == w;
  }

  /** The nesting of those tokens: the `if` stays open, its `else` seen. */
  lemma LostEndRun(id: string, fid: string)
    ensures var ts := [If(id), Lit("A"), Else, WithOpen(fid), Lit("B"), End];
      Run(ts, []) == Some([IfScope(true)]) && !WellNested(ts)
  {
    var ts := [If(id), Lit("A"), Else, WithOpen(fid), Lit("B"), End];
    var t1 := ts[1..];
    var t2 := t1[1..];
    var t3 := t2[1..];
    var t4 := t3[1..];
    var t5 := t4[1..];
    assert t5 == [End] && t5[1..] == [];
    var open: seq<Scope> := [IfScope(true), WithScope];
    assert open[..|open| - 1] == [IfScope(true)];
    assert Run(t5, open) == Some([IfScope(true)]);
    assert Run(t4, open) == Run(t5, open);
    assert [IfScope(true)] + [WithScope] == open;
    assert Run(t3, [IfScope(true)]) == Run(t4, open);
    var plain: seq<Scope> := [IfScope(false)];
    assert plain[..|plain| - 1] + [IfScope(true)] == [IfScope(true)];
    assert Run(t2, plain) == Run(t3, [IfScope(true)]);
    assert Run(t1, plain) == Run(t2, plain);
    assert [] + [IfScope(false)] == plain;
    assert Run(ts, []) == Run(t1, plain);
  }

  /** A predicate without content, with templating on a stream that never
      fails: alone it writes nothing and succeeds; as the first entry of a
      chain it registers its callback, writes its guard and panics. */
  lemma ChainAndConditionDisagree(env: Env, st: Emit, p: Callback)
    requires env.canTemplate && NoFailuresFrom(env, st.attempts)
    ensures InitCondition(env, st, Condition(Some(p), None)) == Outcome(st, Ok)
    ensures var r := InitConditions(env, st, [Condition(Some(p), None), Condition(None, None)]);
      && r.status == Panicked(0)
      && r.st.out == st.out + [If(env.newId(p))]
  {
    var cs := [Condition(Some(p), None), Condition(None, None)];
    var id := env.newId(p);
    var st1 := Register(env, st, p);
    assert Write(env, st1, If(id)).st.out == st.out + [If(id)];
    assert cs[0..] == cs;
    assert Guards(env, st, cs, 0, [], 0).out == Branch(env, st, cs[0], 0, 0);
  }
}

=== FILE: template.dfy ===
/**
  The template-emission engine of v2/template.go: each node's `Init`.

  `Init(env, st, n)` compiles node `n` from state `st` and returns the new
  state with a status. Each function only promises here that write attempts
  are never undone; what compilation keeps whatever the stream does (module
  `Invariants`) and what it writes (modules `Agreement` and `Properties`) is
  proved separately.
 */
module Template {
  import opened Nodes
  import opened Framework

  /** `fmt.Errorf("...: %w", err)`: tags an error with the phase that failed.
      A panic is not an error value and passes through unchanged. */
  function Wrap(phase: Phase, s: Status): (r: Status)
    ensures r.Ok? <==> s.Ok?
    ensures r.Panicked? <==> s.Panicked?
    ensures s.Failed? ==> r.error.Wrapped? && r.error.phase == phase && r.error.cause == s.error
    ensures s.Failed? ==> Root(r.error) == Root(s.error)
    ensures s.Panicked? ==> r == s
  {
    match s
    case Ok => Ok
    case Failed(e) => Failed(Wrapped(phase, e))
    case Panicked(i) => Panicked(i)
  }

  function Init(env: Env, st: Emit, n: Node): (r: Outcome)
    ensures st.attempts <= r.st.attempts
    decreases Size(n), 0
  {
    match n
    case Raw(s) => Write(env, st, Lit(s))
    case Fragment(ch) => InitFragment(env, st, ch)
    case Variable(name, f) => InitVariable(env, st, name, f)
    case With(f, c) => InitWith(env, st, f, c)
    case Cond(c) => InitCondition(env, st, c)
    case Conditions(cs) => InitConditions(env, st, cs)
  }

  /** `Fragment.Init`: children in order, stopping at the first that does not
      succeed. */
  function InitFragment(env: Env, st: Emit, ch: seq<Node>): (r: Outcome)
    ensures st.attempts <= r.st.attempts
    decreases SeqSize(ch), 0
  {
    if |ch| == 0 then Outcome(st, Ok)
    else
      var first := Init(env, st, ch[0]);
      if !first.status.Ok? then first else InitFragment(env, first.st, ch[1..])
  }

  /** `Variable.Init` (v2/template.go:17-24). */
  function InitVariable(env: Env, st: Emit, name: string, f: Callback): (r: Outcome)
    ensures st.attempts <= r.st.attempts
  {
    if !env.canTemplate then Outcome(st, Failed(CannotTemplate))
    else Write(env, Register(env, st, f), Bind(name, env.newId(f)))
  }

  /** `With.Init` (v2/template.go:31-53). */
  function InitWith(env: Env, st: Emit, f: Callback, content: Option<Node>): (r: Outcome)
    ensures st.attempts <= r.st.attempts
    decreases OptSize(content), 1
  {
    if !env.canTemplate then Outcome(st, Failed(CannotTemplate))
    else if content.None? then Outcome(st, Ok)
    else
      var st1 := Register(env, st, f);
      Block(env, st1, WithOpen(env.newId(f)), content.value, WithPrefix, WithContent, WithSuffix)
  }

  /** `Condition.Init` (v2/template.go:64-92). */
  function InitCondition(env: Env, st: Emit, c: Condition): (r: Outcome)
    ensures st.attempts <= r.st.attempts
    decreases CondSize(c), 1
  {
    if !env.canTemplate then Outcome(st, Failed(CannotTemplate))
    else if c.content.None? then Outcome(st, Ok)
    else
      assert CondSize(c) == 2 + Size(c.content.value);
      if c.pred.None? then Init(env, st, c.content.value)
      else
      var st1 := Register(env, st, c.pred.value);
      Block(env, st1, If(env.newId(c.pred.value)), c.content.value,
            ConditionPrefix, ConditionContent, ConditionSuffix)
  }

  /** The shape `With` and `Condition` share: an opening directive, the
      content, `{{end}}`; a failure in each of the three is tagged with its
      own phase and stops the rest. */
  function Block(env: Env, st: Emit, open: Token, content: Node, pre: Phase, mid: Phase, post: Phase): (r: Outcome)
    requires TokenIds(open) <= st.registry.Keys
    ensures st.attempts <= r.st.attempts
    decreases Size(content), 1
  {
    var prefix := Write(env, st, open);
    if !prefix.status.Ok? then Outcome(prefix.st, Wrap(pre, prefix.status))
    else
      var body := Init(env, prefix.st, content);
      if !body.status.Ok? then
        Outcome(body.st, Wrap(mid, body.status))
      else
        var suffix := Write(env, body.st, End);
        Outcome(suffix.st, Wrap(post, suffix.status))
  }

  /** `Conditions.Init` (v2/template.go:96-148). */
  function InitConditions(env: Env, st: Emit, cs: seq<Condition>): (r: Outcome)
    ensures st.attempts <= r.st.attempts
    decreases CondsSize(cs) + 1, 1
  {
    if !env.canTemplate then Outcome(st, Failed(CannotTemplate))
    else if |cs| == 0 then Outcome(st, Ok)
    else if |cs| == 1 then InitCondition(env, st, cs[0])
    else
      assert cs[0..] == cs;
      var loop := Guards(env, st, cs, 0, [], 0);
      if !loop.out.status.Ok? then loop.out
      else CloseChain(env, loop.out.st, loop.elses, loop.branches)
  }

  /** The state of the chain loop when it stops: its outcome, the fallback
      accumulator `elses` and the number of guarded branches written. */
  datatype Loop = Loop(out: Outcome, elses: seq<Node>, branches: nat)

  /** The `for i, tc := range tcs` loop (v2/template.go:108-130), from entry
      `i` on. */
  function Guards(env: Env, st: Emit, cs: seq<Condition>, i: nat, elses: seq<Node>, branches: nat): (r: Loop)
    requires i <= |cs|
    ensures st.attempts <= r.out.st.attempts
    ensures SeqSize(r.elses) <= SeqSize(elses) + CondsSize(cs[i..])
    decreases CondsSize(cs[i..]), 2
  {
    if i == |cs| then Loop(Outcome(st, Ok), elses, branches)
    else
      CondsSizeStep(cs, i);
      var c := cs[i];
      if c.pred.None? then
        if c.content.Some? then
          SeqSizeSnoc(elses, c.content.value);
          Guards(env, st, cs, i + 1, elses + [c.content.value], branches)
        else
          Guards(env, st, cs, i + 1, elses, branches)
      else
        var branch := Branch(env, st, c, i, branches);
        if !branch.status.Ok? then Loop(branch, elses, branches)
        else
          Guards(env, branch.st, cs, i + 1, elses, branches + 1)
  }

  /** One guarded entry of the chain (v2/template.go:115-128): `{{if id $r}}`
      for the first branch, `{{else if id $r}}` after it, then the content.
      An entry without content panics once its guard is written. */
  function Branch(env: Env, st: Emit, c: Condition, i: nat, branches: nat): (r: Outcome)
    requires c.pred.Some?
    ensures st.attempts <= r.st.attempts
    decreases CondSize(c), 1
  {
    var id := env.newId(c.pred.value);
    var st1 := Register(env, st, c.pred.value);
    var guard := Write(env, st1, if branches > 0 then ElseIf(id) else If(id));
    if !guard.status.Ok? then Outcome(guard.st, Wrap(EntryGuard(i), guard.status))
    else if c.content.None? then Outcome(guard.st, Panicked(i))
    else
      assert CondSize(c) == 2 + Size(c.content.value);
      var body := Init(env, guard.st, c.content.value);
      Outcome(body.st, Wrap(EntryContent(i), body.status))
  }

  /** The end of the chain (v2/template.go:132-147): the `{{else}}` and the
      merged fallback block, then the closing `{{end}}`. The fallback block's
      own error is discarded (v2/template.go:139); a panic still escapes. */
  function CloseChain(env: Env, st: Emit, elses: seq<Node>, branches: nat): (r: Outcome)
    ensures st.attempts <= r.st.attempts
    decreases SeqSize(elses), 1
  {
    if |elses| > 0 then
      var elseWrite := if branches > 0 then Write(env, st, Else) else Outcome(st, Ok);
      if !elseWrite.status.Ok? then Outcome(elseWrite.st, Wrap(ChainElse, elseWrite.status))
      else
        var fallback := InitFragment(env, elseWrite.st, elses);
        if fallback.status.Panicked? then fallback
        else Terminate(env, fallback.st, branches)
    else Terminate(env, st, branches)
  }

  function Terminate(env: Env, st: Emit, branches: nat): (r: Outcome)
    ensures st.attempts <= r.st.attempts
    ensures r.status.Ok? || r.status == Failed(Wrapped(ChainEnd, WriteFailed(st.attempts)))
    ensures branches == 0 ==> r == Outcome(st, Ok)
    ensures branches > 0 && r.status.Ok? ==> r.st.out == st.out + [End]
    ensures branches > 0 && !r.status.Ok? ==> r.st.out == st.out
  {
    if branches > 0 then
      var w := Write(env, st, End);
      Outcome(w.st, Wrap(ChainEnd, w.status))
    else Outcome(st, Ok)
  }
}
